=== FILE: README.md ===
# JDBC user service — a Dafny model of its decision logic

`DatabaseUserServiceImpl` is a plain-JDBC service over a `users` table. Most of it moves
data between Java objects and the driver. This project models the decisions it makes
along the way:

- **`searchUsers`**: the dynamic `SELECT` it assembles and the ordered parameter list it
  binds.
- **`batchInsertUsers`**: the null/empty guard, the JDBC batch call sequence, and the
  fold over the update counts `executeBatch` returns. The fold is on a 32-bit Java `int`.
- **`transferData`**: the manual transaction, modelled as a state machine over an
  abstract connection `{autoCommit, closed, pending, committed}`. A failure oracle
  drives it and says which driver call throws.
- **`createUser`, `findUserById`, `updateUser`, `deleteUser`, `executeCountByDepartment`,
  `getTableColumns`**: what each returns or throws for each answer the driver can give.
- **`mapResultSetToUser`**: how a row becomes a `User`.

The driver is never executed. Each operation takes what its statements return, or the
`SQLException` they raise, as a parameter (`Result`/`Option` values, or a
`map<Call, SqlException>` of failing calls). Nullable Java references are `Option`.
Where the code dereferences a null, the model returns a `NullPointer` error. That
covers a null exception message, a null `IS_NULLABLE`, a null merged active flag, a
null list, and a null element or id. Java `int` arithmetic wraps explicitly
(`Jdbc.Wrap32`, `Jdbc.Mul32`).

Two JDBC rules are built into the model:

- A call that throws has no effect on the connection.
- `Connection.setAutoCommit(true)` on a connection in manual mode commits the open
  transaction, as the JDBC API specifies for that method.

Files:

| file | module | contents |
|---|---|---|
| wrappers.dfy | Wrappers | `Option`, `Result` |
| jdbc.dfy | Jdbc | `int32` and its wrap-around, SQL values, `SqlException`, the `Call` vocabulary |
| text.dfy | Text | prefix, suffix and substring predicates, for `String.contains` |
| errors.dfy | Errors | the exceptions the service lets escape |
| users.dfy | Users | `User`, the table row, the INSERT parameters, `mapResultSetToUser` |
| query_builder.dfy | QueryBuilder | `searchUsers` statement assembly, and a parser to read it back |
| crud.dfy | Crud | the fixed-shape operations |
| batch.dfy | Batch | `batchInsertUsers` |
| transfer.dfy | Transfer | `transferData`, as written and with the catch widened |

## Behaviour worth knowing

Facts about the code that a reader might not expect:

- **`batchInsertUsers`**:
  - It adds only strictly positive counts, so a `SUCCESS_NO_INFO` (−2) row adds 0.
  - It never rolls back, so the service does not undo a failed batch.
  - It leaves the connection in manual-commit mode.
- **`transferData`**:
  - A failing rollback is reported with the rollback's exception; the original failure is lost.
  - A failure to obtain the connection is reported as the same transaction error as any other `SQLException`.
  - Only `SQLException` triggers the rollback, although the method's Javadoc (src/main/java/com/dam/accesodatos/ra2/DatabaseUserServiceImpl.java:406) promises a rollback on any error (see Findings).
- **`createUser`**: the zero-rows and missing-key errors are thrown inside the `try` as `RuntimeException`s. They pass by the `SQLException` handler and so are never reclassified.
- **`deleteUser`**: it obtains its connection as `dataSource.getConnection()` through a field nothing assigns. `getConnection()` is static, so the null receiver is never dereferenced and the call behaves as `DatabaseConfig.getConnection()` does.

The schema is inconsistent, and the model keeps it so:

- `searchUsers` and `executeCountByDepartment` filter on `is_active`.
- `createUser`, `findUserById`, `updateUser` and `transferData` use `active`.
- `batchInsertUsers` inserts into `(id, name, email, is_active, last_login, department, role)` but binds only parameters 1, 2, 3, 6 and 7 (`Batch.BatchBindings`).

## Model

| member | source | states |
|---|---|---|
| Jdbc.Wrap32 | src/main/java/com/dam/accesodatos/ra2/DatabaseUserServiceImpl.java:510 | Java `int` narrowing: the result is congruent to the exact value modulo 2^32 and equals it when it fits |
| Jdbc.Wrap32Add | src/main/java/com/dam/accesodatos/ra2/DatabaseUserServiceImpl.java:508-512 | repeated `+=` on an `int` gives the narrowing of the exact sum |
| Jdbc.Mul32 | src/main/java/com/dam/accesodatos/ra2/DatabaseUserServiceImpl.java:361 | `page * size` on `int`s: congruent to the product, equal to it when it fits |
| Jdbc.TextOrNull | src/main/java/com/dam/accesodatos/ra2/DatabaseUserServiceImpl.java:115-118 | `setString` with a null string binds SQL NULL, otherwise that text |
| Text.ContainsIffOccurs | src/main/java/com/dam/accesodatos/ra2/DatabaseUserServiceImpl.java:150 | the recursive `contains` holds exactly when the part occurs at some index of the text |
| Users.RowValues | src/main/java/com/dam/accesodatos/ra2/DatabaseUserServiceImpl.java:168-169 | a row lists its eight values in the selected column order, each NULL exactly where the column is NULL |
| Users.InsertParams | src/main/java/com/dam/accesodatos/ra2/DatabaseUserServiceImpl.java:107-121 | the seven INSERT parameters; only the four text columns can be NULL |
| Users.Persisted | src/main/java/com/dam/accesodatos/ra2/DatabaseUserServiceImpl.java:107-121 | the stored row is the generated id followed by exactly the seven bound values |
| Users.MapRow | src/main/java/com/dam/accesodatos/ra2/DatabaseUserServiceImpl.java:646-669 | id and active are never null (SQL NULL reads as 0 / false); name, email, department, role and both timestamps are copied unchanged, a NULL timestamp staying absent |
| Users.ReadBackStored | src/main/java/com/dam/accesodatos/ra2/DatabaseUserServiceImpl.java:650-666 | mapping the row a User occupies returns that User exactly when its id and active flag are set |
| Users.StoreMapped | src/main/java/com/dam/accesodatos/ra2/DatabaseUserServiceImpl.java:650-655 | the mapping loses information exactly for a NULL id or NULL active column |
| Users.MapRowInjective | src/main/java/com/dam/accesodatos/ra2/DatabaseUserServiceImpl.java:646-669 | distinct rows with id and active set map to distinct Users |
| QueryBuilder.Filtered | src/main/java/com/dam/accesodatos/ra2/DatabaseUserServiceImpl.java:341-356 | one parameter for each filter that is used: non-empty department, non-empty role, non-null active |
| QueryBuilder.SearchStatement | src/main/java/com/dam/accesodatos/ra2/DatabaseUserServiceImpl.java:341-361 | two more parameters than filters, the last two being `size` and the `int` product `page * size` |
| QueryBuilder.FilteredInStep | src/main/java/com/dam/accesodatos/ra2/DatabaseUserServiceImpl.java:341-356 | after the predicate clauses, the `?` count equals the parameter count |
| QueryBuilder.PlaceholdersMatchParams | src/main/java/com/dam/accesodatos/ra2/DatabaseUserServiceImpl.java:341-372 | every `?` of the final statement has exactly one parameter, so the binding loop fills every placeholder |
| QueryBuilder.SearchShape | src/main/java/com/dam/accesodatos/ra2/DatabaseUserServiceImpl.java:341-359 | the SQL starts with `SELECT * FROM users WHERE 1=1` and ends with ` ORDER BY id LIMIT ? OFFSET ?` |
| QueryBuilder.SearchRoundTrip | src/main/java/com/dam/accesodatos/ra2/DatabaseUserServiceImpl.java:341-361 | parsing the statement back pairs each clause, in the order department, role, active, with its own value and recovers exactly the selection the query means |
| QueryBuilder.SearchStatementInjective | src/main/java/com/dam/accesodatos/ra2/DatabaseUserServiceImpl.java:341-361 | two queries give the same statement only if they mean the same selection |
| QueryBuilder.PredicatesOnlyForGivenFilters | src/main/java/com/dam/accesodatos/ra2/DatabaseUserServiceImpl.java:345-356 | a department or role predicate appears exactly when that filter is non-null and non-empty; the active predicate exactly when the flag is non-null |
| QueryBuilder.UnfilteredSearch | src/main/java/com/dam/accesodatos/ra2/DatabaseUserServiceImpl.java:341-361 | with no usable filter the statement is the bare SELECT plus the page window, with parameters `[size, page*size]` |
| QueryBuilder.OffsetIsPageTimesSize | src/main/java/com/dam/accesodatos/ra2/DatabaseUserServiceImpl.java:361 | the offset parameter is exactly `page * size` whenever that product fits in an `int` |
| Crud.CreateRow | src/main/java/com/dam/accesodatos/ra2/DatabaseUserServiceImpl.java:115-121 | the inserted row is always active, with both timestamps set to the current time |
| Crud.CreateFailure | src/main/java/com/dam/accesodatos/ra2/DatabaseUserServiceImpl.java:148-154 | duplicate-email exactly when the message contains the violation text; a null message throws; otherwise a generic database error |
| Crud.CreateUser | src/main/java/com/dam/accesodatos/ra2/DatabaseUserServiceImpl.java:106-155 | success exactly when the statement opens, affects a row, yields a key and closes cleanly; the User then carries the key, active = true, the request's fields and both timestamps; zero rows and a missing key are their own errors |
| Crud.CreatedUserReadsBack | src/main/java/com/dam/accesodatos/ra2/DatabaseUserServiceImpl.java:115-142 | the returned User is what reading back the inserted row gives |
| Crud.DuplicateEmailIffViolation | src/main/java/com/dam/accesodatos/ra2/DatabaseUserServiceImpl.java:148-153 | a duplicate-email error occurs exactly when the caught SQLException's message has the violation text at some index; every caught exception goes through the classification |
| Crud.FindUserById | src/main/java/com/dam/accesodatos/ra2/DatabaseUserServiceImpl.java:167-191 | null exactly for an empty result, the mapped first row otherwise, a database error exactly when the driver throws |
| Crud.UpdateParams | src/main/java/com/dam/accesodatos/ra2/DatabaseUserServiceImpl.java:214-227 | every column of the merged User is written back, then the time, then the id |
| Crud.UpdateWritesMergedUser | src/main/java/com/dam/accesodatos/ra2/DatabaseUserServiceImpl.java:221-227 | the five data parameters are the merged User's columns as its stored row holds them, followed by the update time and the requested id |
| Crud.UpdateUser | src/main/java/com/dam/accesodatos/ra2/DatabaseUserServiceImpl.java:203-242 | not-found exactly when the lookup finds no row, and a lookup failure is a find error; the UPDATE is issued exactly for a found user, an open connection and a non-null merged active flag (an open failure is an update error, a null flag a NullPointerException); zero rows updated is its own error; success exactly when the UPDATE affects a row, the re-read succeeds and the resources close, returning the re-read user |
| Crud.UpdateOnCleanDriver | src/main/java/com/dam/accesodatos/ra2/DatabaseUserServiceImpl.java:203-237 | with the user found and no failing call, the UPDATE writes the merged User back and the call returns the mapped first re-read row, or null when none comes back |
| Crud.UpdatedRow | src/main/java/com/dam/accesodatos/ra2/DatabaseUserServiceImpl.java:214-228 | the UPDATE sets name, email, department, role and active from the merged User and the update time, and keeps `id` and `created_at` |
| Crud.UpdateReturnsWrittenRow | src/main/java/com/dam/accesodatos/ra2/DatabaseUserServiceImpl.java:203-237 | when the re-read finds the written row, the result is the merged User with the update time and the id and creation time the table kept |
| Crud.NoWriteBeforeExistence | src/main/java/com/dam/accesodatos/ra2/DatabaseUserServiceImpl.java:205-208 | when the existence check fails or finds nothing, no UPDATE is issued and the call fails |
| Crud.DeleteUser | src/main/java/com/dam/accesodatos/ra2/DatabaseUserServiceImpl.java:245-260 | true exactly when a row was removed, false exactly when none was, a database error exactly when the driver throws; the unassigned `dataSource` field has no effect, because `getConnection()` is static |
| Crud.CountByDepartment | src/main/java/com/dam/accesodatos/ra2/DatabaseUserServiceImpl.java:604-631 | the first row's count exactly when a row comes back; no row is its own error; a driver failure is a database error |
| Crud.YesIsAsciiCaseFold | src/main/java/com/dam/accesodatos/ra2/DatabaseUserServiceImpl.java:581 | on ASCII text the case-insensitive comparison with "YES" is equality after upper-casing |
| Crud.YesIgnoringCase | src/main/java/com/dam/accesodatos/ra2/DatabaseUserServiceImpl.java:581 | definition of `equalsIgnoreCase("YES")` on the three letters; see Crud.YesIsAsciiCaseFold and Crud.ReadColumn |
| Crud.ReadColumn | src/main/java/com/dam/accesodatos/ra2/DatabaseUserServiceImpl.java:578-582 | a column row reads exactly when IS_NULLABLE is non-null; name and type are copied, nullable is the comparison with "YES", NULL sizes and positions read as 0 |
| Crud.ReadColumns | src/main/java/com/dam/accesodatos/ra2/DatabaseUserServiceImpl.java:573-585 | the loop reads every row, in order, exactly when no IS_NULLABLE is NULL |
| Crud.TableColumns | src/main/java/com/dam/accesodatos/ra2/DatabaseUserServiceImpl.java:564-599 | success exactly when the metadata lists at least one column and no IS_NULLABLE is NULL, and then one description per column, in order, each read from its row; table-not-found exactly when no column is listed; a NULL IS_NULLABLE anywhere throws; a driver failure is a database error |
| Crud.TableColumnsReturnsReadRows | src/main/java/com/dam/accesodatos/ra2/DatabaseUserServiceImpl.java:573-598 | the descriptions the loop reads are returned as they are whenever there is at least one |
| Batch.TallyIsWrappedTotal | src/main/java/com/dam/accesodatos/ra2/DatabaseUserServiceImpl.java:507-512 | the counting loop equals the `int` narrowing of the exact sum of the positive counts |
| Batch.Tally | src/main/java/com/dam/accesodatos/ra2/DatabaseUserServiceImpl.java:507-512 | definition of the counting loop on a Java `int`; see Batch.TallyIsWrappedTotal |
| Batch.SuccessfulInsertsInRange | src/main/java/com/dam/accesodatos/ra2/DatabaseUserServiceImpl.java:507-515 | when that sum fits in an `int`, the result is exactly the sum and is non-negative |
| Batch.NonPositiveCountsAddNothing | src/main/java/com/dam/accesodatos/ra2/DatabaseUserServiceImpl.java:509 | a zero or negative count, `SUCCESS_NO_INFO` and `EXECUTE_FAILED` included, changes nothing wherever it appears |
| Batch.SingleRowCountsBoundTotal | src/main/java/com/dam/accesodatos/ra2/DatabaseUserServiceImpl.java:507-512 | when each row reports at most one insert, the total is at most the number of rows |
| Batch.BatchBindings | src/main/java/com/dam/accesodatos/ra2/DatabaseUserServiceImpl.java:479-495 | parameters 1, 2, 3, 6 and 7 are bound to id, name, email, department and role; 4 and 5 never are |
| Batch.AddRows | src/main/java/com/dam/accesodatos/ra2/DatabaseUserServiceImpl.java:490-499 | the loop completes exactly when every element and its id are non-null and no `addBatch` fails, adding each row in order |
| Batch.BatchBody | src/main/java/com/dam/accesodatos/ra2/DatabaseUserServiceImpl.java:487-512 | definition of the try body: manual mode, the rows, `executeBatch`, `commit`, the count; see Batch.BatchSucceedsIff and Batch.BatchFailureCause |
| Batch.BatchInsertUsers | src/main/java/com/dam/accesodatos/ra2/DatabaseUserServiceImpl.java:472-523 | a null or empty list returns 0 with no driver call; a success reports the wrapped positive total; no path rolls back or restores auto-commit; an acquired connection is always closed last |
| Batch.BatchSucceedsIff | src/main/java/com/dam/accesodatos/ra2/DatabaseUserServiceImpl.java:483-515 | a non-empty batch succeeds exactly when every element can be bound and none of its calls fails, and then makes exactly the clean call sequence, committing once |
| Batch.BatchFailureIsClassified | src/main/java/com/dam/accesodatos/ra2/DatabaseUserServiceImpl.java:483-520 | every failure is a NullPointerException, which needs a null element or id, or the batch database error whose cause is an exception some call raised |
| Batch.BatchFailureCause | src/main/java/com/dam/accesodatos/ra2/DatabaseUserServiceImpl.java:483-520 | a failing acquire, prepare or `setAutoCommit(false)` is reported with its own exception; with every row added, so is a failing `executeBatch` or, after it, `commit` |
| Transfer.CommittedRowsStay | src/main/java/com/dam/accesodatos/ra2/DatabaseUserServiceImpl.java:418-462 | no connection operation takes back a committed row; switching auto-commit on commits and leaves no transaction open |
| Transfer.RowsOfNoNulls | src/main/java/com/dam/accesodatos/ra2/DatabaseUserServiceImpl.java:425-433 | a list without nulls yields one row per user, in order, with active defaulting to true and creation time to now |
| Transfer.FirstStop | src/main/java/com/dam/accesodatos/ra2/DatabaseUserServiceImpl.java:425-436 | the first index at which the loop meets a null element or a failing insert |
| Transfer.InsertFrom | src/main/java/com/dam/accesodatos/ra2/DatabaseUserServiceImpl.java:425-436 | the loop adds to the open transaction exactly the rows before the first stop, commits nothing, and ends normally, with a SQLException or with a NullPointerException according to that stop |
| Transfer.TryBlock | src/main/java/com/dam/accesodatos/ra2/DatabaseUserServiceImpl.java:413-442 | definition of the try block; see Transfer.TryBlockExceptions, Transfer.TryBlockNormalIff and Transfer.TryBlockFacts |
| Transfer.CatchBlock | src/main/java/com/dam/accesodatos/ra2/DatabaseUserServiceImpl.java:444-455 | definition of the catch clause; see Transfer.CatchFacts |
| Transfer.FinallyBlock | src/main/java/com/dam/accesodatos/ra2/DatabaseUserServiceImpl.java:457-467 | definition of the finally clause; see Transfer.FinallyFacts |
| Transfer.TransferData | src/main/java/com/dam/accesodatos/ra2/DatabaseUserServiceImpl.java:410-469 | a connection failure is a transaction error with no other call; otherwise a connection exists and the trace starts with acquiring it |
| Transfer.TransferDataRollbackAll | src/main/java/com/dam/accesodatos/ra2/DatabaseUserServiceImpl.java:444-456 | the same, with every exception from the try block rolled back |
| Transfer.TryBlockNormalIff | src/main/java/com/dam/accesodatos/ra2/DatabaseUserServiceImpl.java:413-442 | the try block ends normally exactly when the list and its elements are non-null and none of its calls fails, having committed every row |
| Transfer.TransferSucceedsIff | src/main/java/com/dam/accesodatos/ra2/DatabaseUserServiceImpl.java:410-469 | true is returned exactly under those conditions, whatever the rollback, restore or close do, and then every row is committed and none is pending |
| Transfer.AcquireFailureTouchesNothing | src/main/java/com/dam/accesodatos/ra2/DatabaseUserServiceImpl.java:415-459 | when the connection cannot be obtained, neither rollback nor the finally clause runs |
| Transfer.TryBlockFacts | src/main/java/com/dam/accesodatos/ra2/DatabaseUserServiceImpl.java:418-440 | auto-commit is off before any insert and stays off; nothing is committed unless the try block completes |
| Transfer.TryBlockExceptions | src/main/java/com/dam/accesodatos/ra2/DatabaseUserServiceImpl.java:418-442 | the try block ends with the exception of whichever call failed first: `setAutoCommit(false)`, `prepareStatement`, the failing insert, the statement close or `commit`; a null list or element ends it with an unchecked exception |
| Transfer.CatchFacts | src/main/java/com/dam/accesodatos/ra2/DatabaseUserServiceImpl.java:444-455 | a SQLException is rolled back and rethrown as the cause of the transaction error; if the rollback fails, the critical error carries the rollback's own exception and the original is lost; the committed rows do not change |
| Transfer.FinallyFacts | src/main/java/com/dam/accesodatos/ra2/DatabaseUserServiceImpl.java:457-467 | restore, then close only if the restore succeeded; a successful restore commits what is pending |
| Transfer.SqlFailureRollsBack | src/main/java/com/dam/accesodatos/ra2/DatabaseUserServiceImpl.java:444-455 | a rollback is attempted exactly when the run ends in a transaction or critical rollback error, which by Transfer.TryBlockExceptions is exactly when a call after acquisition raised a SQLException; after a clean rollback no row is committed; a critical rollback error carries the rollback's exception |
| Transfer.FinallyRestoresAndCloses | src/main/java/com/dam/accesodatos/ra2/DatabaseUserServiceImpl.java:457-467 | once connected, the restore is always attempted, the close exactly when the restore succeeds, and the connection ends closed exactly when neither fails |
| Transfer.OutcomeDecidedBeforeFinally | src/main/java/com/dam/accesodatos/ra2/DatabaseUserServiceImpl.java:457-467 | two oracles that agree before the finally clause give the same outcome |
| Transfer.CleanupFailuresAreSwallowed | src/main/java/com/dam/accesodatos/ra2/DatabaseUserServiceImpl.java:460-466 | failures of the restore or the close never change the outcome |
| Transfer.NullElementCommitsEarlierRows | src/main/java/com/dam/accesodatos/ra2/DatabaseUserServiceImpl.java:425-461 | as written, `[u, null]` throws without a rollback and leaves `u`'s row committed |
| Transfer.NullElementCommitsPrefix | src/main/java/com/dam/accesodatos/ra2/DatabaseUserServiceImpl.java:425-461 | as written, when the loop stops at a null element the rows before it end up committed |
| Transfer.RollbackAllIsAtomic | src/main/java/com/dam/accesodatos/ra2/DatabaseUserServiceImpl.java:444-455 | with the catch widened, no row is committed unless the transfer succeeds or the rollback itself fails |
| Transfer.RollbackAllAgreesWithoutNulls | src/main/java/com/dam/accesodatos/ra2/DatabaseUserServiceImpl.java:444-455 | widening the catch changes nothing for a list without null elements |

## Left out

- `testConnection` and `getDatabaseInfo`: they only report what the driver says about itself.
- `findAll` and `findUsersByDepartment`: their result and order are whatever the database returns.
- `searchUsers`' row mapping: it builds each result through a `User` constructor, and the User class is not part of this model.
- `searchUsers`' failure path: a SQLException becomes a generic error with no decision in it.
- SQL evaluation: no statement is run against a table. The driver is an oracle, and the rows a query returns are a parameter.
- `LocalDateTime.now()`: it is one `now` parameter per call. Successive clock reads within a call are taken to agree.
- Crud.CreateUser: the returned User's `createdAt == updatedAt == now` holds only because the four clock reads of `createUser` (lines 120, 121, 139 and 140) are collapsed into one `now`; in the program they may differ from each other and from the bound values.
- Crud.CreatedUserReadsBack: the returned User equals the stored row read back only under the same single-clock collapse; with distinct clock reads its two timestamps can differ from the row's.
- Console output: it has no effect on results.
- Exception message texts: errors are classified by kind and cause, not by text.
- `UserUpdateDto.applyTo`: it is an arbitrary function parameter, because its source is not part of this model.
- `UserQueryDto`: modelled as plain fields with `int` page and size, because its source is not part of this model.
- `DatabaseConfig`: it only supplies connections, which the oracle stands for.
- Null `id` arguments to `findUserById`, `updateUser` and `deleteUser`: ids are always present integers.
- Unicode case folding in `equalsIgnoreCase`: only the letters of "YES" are modelled. That includes U+017F, which upper-cases to `S`.
- `getColumns`' pattern matching of the table name, and the metadata fields other than the five read: the rows are a parameter.
- Suppressed exceptions from try-with-resources: they are recorded nowhere, and only the primary exception is reported.
- The state of a connection closed with a transaction still open: it is left unmodelled. In `transferData` the close runs only after a successful restore, so no transaction is open then. In `batchInsertUsers` the connection state is not tracked.
- Which of the chained try-with-resources resources failed to open or close: in `createUser`, `updateUser`, `executeCountByDepartment` and `getTableColumns` each is one oracle field.
- Batch.SuccessfulInsertsInRange: the non-negativity of the result is proved only when the exact total fits in an `int`, because the Java accumulator wraps beyond that.
- Transfer.RollbackAllIsAtomic: excludes the case where the rollback itself fails. There the rows still pending are committed by the restore in `finally`, in both versions.

## Findings

| source | as written | input that shows it | evidently intended | confidence | as-written member | corrected member |
|---|---|---|---|---|---|---|
| src/main/java/com/dam/accesodatos/ra2/DatabaseUserServiceImpl.java:444 | `transferData` rolls back only on SQLException; a null element makes `user.getName()` throw NullPointerException, which skips the rollback, and the finally clause's `setAutoCommit(true)` then commits the rows already inserted | `[u, null]` with a working driver: the call throws, no rollback runs, and `u`'s row is committed | roll back on any failure, as the method's own documentation says, so that a failed transfer commits nothing | medium (relies on the JDBC rule for `setAutoCommit`); not executed | Transfer.NullElementCommitsEarlierRows | Transfer.RollbackAllIsAtomic |

=== FILE: batch.dfy ===
/** `batchInsertUsers`: submits one INSERT per user as a single JDBC batch inside a
    manual-commit scope, commits once, and reports how many rows the driver counted. */
module Batch {
  import opened Wrappers
  import opened Jdbc
  import opened Users
  import opened Errors

  /** What the driver does during the batch: the calls that fail, and the per-row update
      counts `executeBatch` returns when it succeeds. */
  datatype BatchDriver = BatchDriver(failures: Failures, updateCounts: seq<int32>)

  /** The outcome of a batch and the driver calls made, in order. */
  datatype BatchRun = BatchRun(result: Result<int32, ServiceError>, trace: seq<Call>)

  /** `Statement.SUCCESS_NO_INFO`: the row was inserted but its count is unknown. */
  const SuccessNoInfo: int32 := -2
  /** `Statement.EXECUTE_FAILED`. */
  const ExecuteFailed: int32 := -3

  /** The exact sum of the strictly positive update counts. */
  function PositiveTotal(counts: seq<int32>): nat {
    if counts == [] then 0
    else (if counts[0] > 0 then counts[0] as nat else 0) + PositiveTotal(counts[1..])
  }

  /** The counting loop: `if (result > 0) successfulInserts += result` on a Java `int`. */
  function Tally(counts: seq<int32>, acc: int32): int32 {
    if counts == [] then acc
    else Tally(counts[1..], if counts[0] > 0 then Wrap32(acc + counts[0]) else acc)
  }

  /** The loop accumulates the positive counts modulo 2^32. */
  lemma {:induction false} TallyIsWrappedTotal(counts: seq<int32>, acc: int32)
    ensures Tally(counts, acc) == Wrap32(acc + PositiveTotal(counts))
  {
    if counts != [] {
      var next := if counts[0] > 0 then Wrap32(acc + counts[0]) else acc;
      var p := if counts[0] > 0 then counts[0] as int else 0;
      TallyIsWrappedTotal(counts[1..], next);
      Wrap32Add(acc + p, PositiveTotal(counts[1..]));
      assert next == Wrap32(acc + p);
    }
  }

  /** The reported count is the sum of the positive update counts whenever that sum fits
      in an `int`; in particular it is then never negative. */
  lemma SuccessfulInsertsInRange(counts: seq<int32>)
    requires PositiveTotal(counts) < 0x8000_0000
    ensures Tally(counts, 0) == PositiveTotal(counts)
    ensures Tally(counts, 0) >= 0
  {
    TallyIsWrappedTotal(counts, 0);
  }

  lemma {:induction false} PositiveTotalAppend(a: seq<int32>, b: seq<int32>)
    ensures PositiveTotal(a + b) == PositiveTotal(a) + PositiveTotal(b)
  {
    if a == [] {
      assert a + b == b;
    } else {
      assert (a + b)[1..] == a[1..] + b;
      PositiveTotalAppend(a[1..], b);
    }
  }

  /** A zero or negative count, `SUCCESS_NO_INFO` and `EXECUTE_FAILED` among them, adds
      nothing to the total wherever it appears. */
  lemma NonPositiveCountsAddNothing(a: seq<int32>, code: int32, b: seq<int32>)
    requires code <= 0
    ensures PositiveTotal(a + [code] + b) == PositiveTotal(a + b)
  {
    PositiveTotalAppend(a + [code], b);
    PositiveTotalAppend(a, [code]);
    PositiveTotalAppend(a, b);
  }

  /** When every row reports at most one inserted row, the total is at most the number of
      rows, so a batch of fewer than 2^31 rows cannot wrap the count. */
  lemma {:induction false} SingleRowCountsBoundTotal(counts: seq<int32>)
    requires forall i :: 0 <= i < |counts| ==> counts[i] <= 1
    ensures PositiveTotal(counts) <= |counts|
  {
    if counts != [] {
      SingleRowCountsBoundTotal(counts[1..]);
    }
  }

  /** The parameters bound for one user, by parameter index: `setLong(1, id)`,
      `setString(2, name)`, `setString(3, email)`, `setString(6, department)`,
      `setString(7, role)`. Parameters 4 (`is_active`) and 5 (`last_login`) of the
      seven-column INSERT are never bound. */
  function BatchBindings(u: User): (b: map<nat, SqlValue>)
    requires u.id.Some?
    ensures b.Keys == {1, 2, 3, 6, 7}
    ensures 4 !in b && 5 !in b
    ensures b[1] == Int(u.id.value) && b[2] == TextOrNull(u.name) && b[3] == TextOrNull(u.email)
    ensures b[6] == TextOrNull(u.department) && b[7] == TextOrNull(u.role)
  {
    map[1 := Int(u.id.value), 2 := TextOrNull(u.name), 3 := TextOrNull(u.email),
        6 := TextOrNull(u.department), 7 := TextOrNull(u.role)]
  }

  /** How the body of the try block ends. */
  datatype Exit = Completed(count: int32) | Thrown(error: ServiceError)

  /** The body of the try block so far: how it ended and the calls it made. */
  datatype Body = Body(exit: Exit, trace: seq<Call>)

  /** An element can be bound when it is non-null and its id unboxes. */
  predicate Bindable(u: Option<User>) {
    u.Some? && u.value.id.Some?
  }

  /** The loop binding the users from index `i` on and adding each to the batch. A null
      element or a null id throws a NullPointerException from `getId()` or its unboxing. */
  function AddRows(users: seq<Option<User>>, i: nat, failures: Failures): (b: Body)
    requires i <= |users|
    ensures b.exit.Completed? <==>
      forall k :: i <= k < |users| ==> Bindable(users[k]) && AddBatch(k) !in failures
    ensures b.exit.Completed? ==> b.trace == AddedFrom(i, |users|)
    ensures forall c :: c in b.trace ==> c.AddBatch?
    ensures b.exit == Thrown(NullPointer) ==> exists k :: i <= k < |users| && !Bindable(users[k])
    ensures b.exit.Thrown? && b.exit.error != NullPointer ==>
      exists k :: i <= k < |users| && AddBatch(k) in failures && b.exit.error == DatabaseError(Batch, failures[AddBatch(k)])
    decreases |users| - i
  {
    if i == |users| then Body(Completed(0), [])
    else if !Bindable(users[i]) then Body(Thrown(NullPointer), [])
    else if AddBatch(i) in failures then Body(Thrown(DatabaseError(Batch, failures[AddBatch(i)])), [AddBatch(i)])
    else
      var rest := AddRows(users, i + 1, failures);
      Body(rest.exit, [AddBatch(i)] + rest.trace)
  }

  /** `AddBatch(i)`, ..., `AddBatch(n - 1)`. */
  function AddedFrom(i: nat, n: nat): seq<Call>
    requires i <= n
    decreases n - i
  {
    if i == n then [] else [AddBatch(i)] + AddedFrom(i + 1, n)
  }

  /** The body of the try block once the connection and the statement are open. */
  function BatchBody(users: seq<Option<User>>, drv: BatchDriver): Body {
    var f := drv.failures;
    if SetAutoCommit(false) in f then Body(Thrown(DatabaseError(Batch, f[SetAutoCommit(false)])), [SetAutoCommit(false)])
    else
      var added := AddRows(users, 0, f);
      var pre := [SetAutoCommit(false)] + added.trace;
      if added.exit.Thrown? then Body(added.exit, pre)
      else if ExecuteBatch in f then Body(Thrown(DatabaseError(Batch, f[ExecuteBatch])), pre + [ExecuteBatch])
      else if Commit in f then Body(Thrown(DatabaseError(Batch, f[Commit])), pre + [ExecuteBatch, Commit])
      else Body(Completed(Tally(drv.updateCounts, 0)), pre + [ExecuteBatch, Commit])
  }

  /** `batchInsertUsers`. A null or empty list returns 0 before any connection is taken.
      Otherwise try-with-resources closes the statement and the connection on every exit;
      a failure while closing is reported only when the body completed. No path rolls
      back or restores auto-commit. */
  function BatchInsertUsers(users: Option<seq<Option<User>>>, drv: BatchDriver): (run: BatchRun)
    ensures users.None? || users.value == [] ==> run == BatchRun(Success(0), [])
    ensures users.Some? && users.value != [] && run.result.Success? ==>
      run.result.value == Wrap32(PositiveTotal(drv.updateCounts))
    ensures Rollback !in run.trace && SetAutoCommit(true) !in run.trace
    ensures run.trace != [] ==> run.trace[0] == Acquire
    ensures run.trace != [] && Acquire !in drv.failures ==> run.trace[|run.trace| - 1] == Close
  {
    if users.None? || users.value == [] then BatchRun(Success(0), [])
    else
      var f := drv.failures;
      if Acquire in f then BatchRun(Failure(DatabaseError(Batch, f[Acquire])), [Acquire])
      else if Prepare in f then BatchRun(Failure(DatabaseError(Batch, f[Prepare])), [Acquire, Prepare, Close])
      else
        var body := BatchBody(users.value, drv);
        var trace := [Acquire, Prepare] + body.trace + [CloseStatement, Close];
        match body.exit
        case Thrown(err) => BatchRun(Failure(err), trace)
        case Completed(n) =>
          TallyIsWrappedTotal(drv.updateCounts, 0);
          if CloseStatement in f then BatchRun(Failure(DatabaseError(Batch, f[CloseStatement])), trace)
          else if Close in f then BatchRun(Failure(DatabaseError(Batch, f[Close])), trace)
          else BatchRun(Success(n), trace)
  }

  /** The calls a non-empty batch of `n` rows makes when nothing fails. */
  function CleanTrace(n: nat): seq<Call> {
    [Acquire, Prepare, SetAutoCommit(false)] + AddedFrom(0, n) + [ExecuteBatch, Commit, CloseStatement, Close]
  }

  /** A non-empty batch succeeds exactly when every element can be bound and none of the
      calls it makes fails; it then makes exactly those calls, committing once. */
  lemma BatchSucceedsIff(users: seq<Option<User>>, drv: BatchDriver)
    requires users != []
    ensures BatchInsertUsers(Some(users), drv).result.Success? <==>
      && (forall k :: 0 <= k < |users| ==> Bindable(users[k]) && AddBatch(k) !in drv.failures)
      && Acquire !in drv.failures && Prepare !in drv.failures && SetAutoCommit(false) !in drv.failures
      && ExecuteBatch !in drv.failures && Commit !in drv.failures
      && CloseStatement !in drv.failures && Close !in drv.failures
    ensures BatchInsertUsers(Some(users), drv).result.Success? ==>
      BatchInsertUsers(Some(users), drv).trace == CleanTrace(|users|)
  {
  }

  /** How a failed batch is reported: a null element or id is a NullPointerException, and
      every SQLException, whichever call raised it, is wrapped as the batch's database
      error with that exception as its cause. */
  lemma BatchFailureIsClassified(users: Option<seq<Option<User>>>, drv: BatchDriver)
    ensures var r := BatchInsertUsers(users, drv).result;
      r.Failure? ==> r.error == NullPointer || (r.error.DatabaseError? && r.error.op == Batch && r.error.cause in drv.failures.Values)
    ensures BatchInsertUsers(users, drv).result == Failure(NullPointer) ==>
      users.Some? && exists k :: 0 <= k < |users.value| && !Bindable(users.value[k])
  {
    if users.Some? && users.value != [] && Acquire !in drv.failures && Prepare !in drv.failures
       && SetAutoCommit(false) !in drv.failures {
      var added := AddRows(users.value, 0, drv.failures);
      if added.exit.Thrown? && added.exit.error != NullPointer {
        var k :| 0 <= k < |users.value| && AddBatch(k) in drv.failures
          && added.exit.error == DatabaseError(Batch, drv.failures[AddBatch(k)]);
        assert drv.failures[AddBatch(k)] in drv.failures.Values;
      }
    }
  }

  /** Which call's exception a non-empty batch reports, for the calls made before the
      rows are added and for those made after. */
  lemma BatchFailureCause(users: seq<Option<User>>, drv: BatchDriver)
    requires users != []
    ensures var r := BatchInsertUsers(Some(users), drv).result; var f := drv.failures;
      && (Acquire in f ==> r == Failure(DatabaseError(Batch, f[Acquire])))
      && (Acquire !in f && Prepare in f ==> r == Failure(DatabaseError(Batch, f[Prepare])))
      && (Acquire !in f && Prepare !in f && SetAutoCommit(false) in f ==> r == Failure(DatabaseError(Batch, f[SetAutoCommit(false)])))
    ensures var r := BatchInsertUsers(Some(users), drv).result; var f := drv.failures;
      Acquire !in f && Prepare !in f && SetAutoCommit(false) !in f
      && (forall k :: 0 <= k < |users| ==> Bindable(users[k]) && AddBatch(k) !in f) ==>
        && (ExecuteBatch in f ==> r == Failure(DatabaseError(Batch, f[ExecuteBatch])))
        && (ExecuteBatch !in f && Commit in f ==> r == Failure(DatabaseError(Batch, f[Commit])))
  {
  }
}

=== FILE: crud.dfy ===
/** The fixed-shape operations of the service: `createUser`, `findUserById`, `updateUser`,
    `deleteUser`, `executeCountByDepartment` and `getTableColumns`. The driver is an
    oracle: each operation receives what its statements return or the SQLException they
    raise, and decides what the service returns or throws. */
module Crud {
  import opened Wrappers
  import opened Jdbc
  import opened Text
  import opened Users
  import opened Errors

  // ---------------------------------------------------------------------------
  // createUser

  /** A `UserCreateDto`. */
  datatype UserCreate = UserCreate(
    name: Option<string>,
    email: Option<string>,
    department: Option<string>,
    role: Option<string>)

  /** What the driver does during `createUser`. */
  datatype CreateDriver = CreateDriver(
    open: Option<SqlException>,                       // getConnection or prepareStatement throws
    update: Result<int, SqlException>,                // executeUpdate: rows affected, or throws
    generatedKey: Result<Option<int>, SqlException>,  // the first generated key, none, or throws
    release: Option<SqlException>)                    // closing the statement or connection throws

  /** The message text by which the database reports a uniqueness violation. */
  const UniqueViolation: string := "Unique index or primary key violation"

  /** The row `createUser` inserts: the request's fields, active, both timestamps `now`. */
  function CreateRow(dto: UserCreate, now: Timestamp): (r: NewRow)
    ensures r.active
    ensures r.createdAt == now && r.updatedAt == now
  {
    NewRow(dto.name, dto.email, dto.department, dto.role, true, now, now)
  }

  /** The catch block of `createUser`. A message mentioning a uniqueness violation means
      the email is taken; a null message makes `getMessage().contains(..)` throw. */
  function CreateFailure(e: SqlException, email: Option<string>): (err: ServiceError)
    ensures err == DuplicateEmail(email) <==> e.message.Some? && Contains(e.message.value, UniqueViolation)
    ensures err == NullPointer <==> e.message.None?
    ensures err != DuplicateEmail(email) && err != NullPointer ==> err == DatabaseError(Create, e)
  {
    match e.message
    case None => NullPointer
    case Some(m) => if Contains(m, UniqueViolation) then DuplicateEmail(email) else DatabaseError(Create, e)
  }

  /** `createUser`: inserts the row, checks the affected-row count and the generated key,
      and returns the new User. The zero-row and missing-key errors are raised inside the
      try block but are not SQLExceptions, so they escape the catch unclassified. */
  function CreateUser(dto: UserCreate, now: Timestamp, drv: CreateDriver): (r: Result<User, ServiceError>)
    ensures r.Success? <==>
      && drv.open.None?
      && drv.update.Success? && drv.update.value != 0
      && drv.generatedKey.Success? && drv.generatedKey.value.Some?
      && drv.release.None?
    ensures r.Success? ==>
      && r.value.id == drv.generatedKey.value
      && r.value.active == Some(true)
      && r.value.createdAt == Some(now) && r.value.updatedAt == Some(now)
      && r.value.name == dto.name && r.value.email == dto.email
      && r.value.department == dto.department && r.value.role == dto.role
    ensures drv.open.None? && drv.update == Success(0) ==> r == Failure(NoRowInserted)
    ensures drv.open.None? && drv.update.Success? && drv.update.value != 0 && drv.generatedKey == Success(None)
            ==> r == Failure(NoGeneratedKey)
    ensures r.Failure? && r.error.DuplicateEmail? ==> r.error.email == dto.email
  {
    if drv.open.Some? then Failure(CreateFailure(drv.open.value, dto.email))
    else match drv.update
      case Failure(e) => Failure(CreateFailure(e, dto.email))
      case Success(affected) =>
        if affected == 0 then Failure(NoRowInserted)
        else match drv.generatedKey
          case Failure(e) => Failure(CreateFailure(e, dto.email))
          case Success(None) => Failure(NoGeneratedKey)
          case Success(Some(id)) =>
            if drv.release.Some? then Failure(CreateFailure(drv.release.value, dto.email))
            else Success(User(Some(id), dto.name, dto.email, dto.department, dto.role, Some(true), Some(now), Some(now)))
  }

  /** The User `createUser` returns is exactly what reading back the inserted row gives:
      the row holds the generated id followed by the seven values the INSERT binds. */
  lemma CreatedUserReadsBack(dto: UserCreate, now: Timestamp, drv: CreateDriver)
    requires CreateUser(dto, now, drv).Success?
    ensures var u := CreateUser(dto, now, drv).value;
      && MapRow(Persisted(CreateRow(dto, now), u.id.value)) == u
      && RowValues(Persisted(CreateRow(dto, now), u.id.value)) == [Int(u.id.value)] + InsertParams(CreateRow(dto, now))
  {
  }

  /** The SQLException that reaches the catch block of `createUser`, if any. */
  ghost function Caught(drv: CreateDriver): Option<SqlException> {
    if drv.open.Some? then drv.open
    else if drv.update.Failure? then Some(drv.update.error)
    else if drv.update.value == 0 then None
    else if drv.generatedKey.Failure? then Some(drv.generatedKey.error)
    else if drv.generatedKey.value.None? then None
    else drv.release
  }

  /** A duplicate-email error is raised exactly when the SQLException that reaches the
      catch block carries a message in which the violation text occurs; every other
      SQLException becomes a generic database error (or, with a null message, a
      NullPointerException). */
  lemma DuplicateEmailIffViolation(dto: UserCreate, now: Timestamp, drv: CreateDriver)
    ensures CreateUser(dto, now, drv) == Failure(DuplicateEmail(dto.email)) <==>
      && Caught(drv).Some? && Caught(drv).value.message.Some?
      && exists i :: OccursAt(Caught(drv).value.message.value, UniqueViolation, i)
    ensures Caught(drv).Some? ==> CreateUser(dto, now, drv) == Failure(CreateFailure(Caught(drv).value, dto.email))
  {
    if Caught(drv).Some? && Caught(drv).value.message.Some? {
      ContainsIffOccurs(Caught(drv).value.message.value, UniqueViolation);
    }
  }

  // ---------------------------------------------------------------------------
  // findUserById

  /** `findUserById`: the first matching row mapped to a User, or null when no row
      matches; a SQLException becomes a database error. */
  function FindUserById(id: int, read: Result<seq<UserRow>, SqlException>): (r: Result<Option<User>, ServiceError>)
    ensures r == Success(None) <==> read == Success([])
    ensures r.Failure? <==> read.Failure?
    ensures r.Failure? ==> r.error == DatabaseError(Find, read.error)
    ensures r.Success? && r.value.Some? ==> |read.value| > 0 && r.value.value == MapRow(read.value[0])
  {
    match read
    case Failure(e) => Failure(DatabaseError(Find, e))
    case Success(rows) => if rows == [] then Success(None) else Success(Some(MapRow(rows[0])))
  }

  // ---------------------------------------------------------------------------
  // updateUser

  /** What the driver does during `updateUser`: the existence check, the UPDATE on its own
      connection, and the final re-read. */
  datatype UpdateDriver = UpdateDriver(
    lookup: Result<seq<UserRow>, SqlException>,  // the first findUserById
    open: Option<SqlException>,                  // getConnection or prepareStatement throws
    update: Result<int, SqlException>,           // executeUpdate: rows affected, or throws
    reread: Result<seq<UserRow>, SqlException>,  // the findUserById that builds the result
    release: Option<SqlException>)               // closing the statement or connection throws

  /** The outcome of `updateUser`, and the UPDATE parameters if the UPDATE was executed. */
  datatype UpdateRun = UpdateRun(result: Result<Option<User>, ServiceError>, issued: Option<seq<SqlValue>>)

  /** The parameters of `UPDATE users SET name = ?, email = ?, department = ?, role = ?,
      active = ?, updated_at = ? WHERE id = ?`: every column is written back. */
  function UpdateParams(u: User, now: Timestamp, id: int): (ps: seq<SqlValue>)
    requires u.active.Some?
    ensures |ps| == 7
    ensures ps[..4] == [TextOrNull(u.name), TextOrNull(u.email), TextOrNull(u.department), TextOrNull(u.role)]
    ensures ps[4] == Flag(u.active.value) && ps[5] == Stamp(now) && ps[6] == Int(id)
  {
    [TextOrNull(u.name), TextOrNull(u.email), TextOrNull(u.department), TextOrNull(u.role),
     Flag(u.active.value), Stamp(now), Int(id)]
  }

  /** The UPDATE writes the merged User's name, email, department, role and active flag
      into their columns exactly as the row that User occupies holds them, stamps the
      update time, and targets the requested id. */
  lemma UpdateWritesMergedUser(u: User, now: Timestamp, id: int)
    requires u.active.Some?
    ensures UpdateParams(u, now, id)[..5] == RowValues(StoredRow(u))[1..6]
    ensures UpdateParams(u, now, id)[5..] == [Stamp(now), Int(id)]
  {
    var ps := UpdateParams(u, now, id);
    assert ps[..5] == ps[..4] + [ps[4]];
  }

  /** The existence check found a row. */
  predicate Found(drv: UpdateDriver) {
    drv.lookup.Success? && drv.lookup.value != []
  }

  /** The existing User, read from the first row the existence check found, with the
      request merged into it. */
  function Merged(applyTo: User -> User, drv: UpdateDriver): User
    requires Found(drv)
  {
    applyTo(MapRow(drv.lookup.value[0]))
  }

  /** `updateUser`: confirms the user exists, merges the request into it with `applyTo`,
      writes every column back and re-reads the row. A null merged active flag fails the
      unboxing in `setBoolean` before the UPDATE runs. */
  function UpdateUser(id: int, applyTo: User -> User, now: Timestamp, drv: UpdateDriver): (run: UpdateRun)
    ensures run.result == Failure(UserNotFound(id)) <==> drv.lookup == Success([])
    ensures drv.lookup.Failure? ==> run.result == Failure(DatabaseError(Find, drv.lookup.error))
    ensures Found(drv) && drv.open.Some? ==> run.result == Failure(DatabaseError(Update, drv.open.value))
    ensures Found(drv) && drv.open.None? && Merged(applyTo, drv).active.None? ==> run.result == Failure(NullPointer)
    ensures run.issued.Some? <==> Found(drv) && drv.open.None? && Merged(applyTo, drv).active.Some?
    ensures run.issued.Some? ==> run.issued.value == UpdateParams(Merged(applyTo, drv), now, id)
    ensures run.issued.Some? && drv.update.Failure? ==> run.result == Failure(DatabaseError(Update, drv.update.error))
    ensures run.result == Failure(NoRowUpdated) <==> run.issued.Some? && drv.update == Success(0)
    ensures run.issued.Some? && drv.update.Success? && drv.update.value != 0 && drv.reread.Failure? ==>
      run.result == Failure(DatabaseError(Find, drv.reread.error))
    ensures run.issued.Some? && drv.update.Success? && drv.update.value != 0 && drv.reread.Success? && drv.release.Some? ==>
      run.result == Failure(DatabaseError(Update, drv.release.value))
    ensures run.result.Success? <==>
      && run.issued.Some? && drv.update.Success? && drv.update.value != 0
      && drv.reread.Success? && drv.release.None?
    ensures run.result.Success? ==> run.result == FindUserById(id, drv.reread)
  {
    match FindUserById(id, drv.lookup)
    case Failure(err) => UpdateRun(Failure(err), None)
    case Success(None) => UpdateRun(Failure(UserNotFound(id)), None)
    case Success(Some(existing)) =>
      var merged := applyTo(existing);
      if drv.open.Some? then UpdateRun(Failure(DatabaseError(Update, drv.open.value)), None)
      else if merged.active.None? then UpdateRun(Failure(NullPointer), None)
      else
        var params := UpdateParams(merged, now, id);
        match drv.update
        case Failure(e) => UpdateRun(Failure(DatabaseError(Update, e)), Some(params))
        case Success(affected) =>
          if affected == 0 then UpdateRun(Failure(NoRowUpdated), Some(params))
          else match FindUserById(id, drv.reread)
            case Failure(err) => UpdateRun(Failure(err), Some(params))
            case Success(u) =>
              if drv.release.Some? then UpdateRun(Failure(DatabaseError(Update, drv.release.value)), Some(params))
              else UpdateRun(Success(u), Some(params))
  }

  /** With the user found and a driver that fails nowhere, the UPDATE writes the merged
      User back and the call returns what the re-read finds. */
  lemma UpdateOnCleanDriver(id: int, applyTo: User -> User, now: Timestamp, drv: UpdateDriver, rows: seq<UserRow>)
    requires Found(drv) && drv.open.None? && Merged(applyTo, drv).active.Some?
    requires drv.update.Success? && drv.update.value != 0
    requires drv.reread == Success(rows) && drv.release.None?
    ensures UpdateUser(id, applyTo, now, drv).issued == Some(UpdateParams(Merged(applyTo, drv), now, id))
    ensures UpdateUser(id, applyTo, now, drv).result == Success(if rows == [] then None else Some(MapRow(rows[0])))
  {
  }

  /** The row the UPDATE leaves behind: the columns it sets take the merged values and the
      update time; `id` and `created_at`, which it does not set, keep their old values. */
  function UpdatedRow(before: UserRow, merged: User, now: Timestamp): (row: UserRow)
    ensures row.id == before.id && row.createdAt == before.createdAt && row.updatedAt == Some(now)
    ensures RowValues(row)[1..6] == RowValues(StoredRow(merged))[1..6]
  {
    before.(name := merged.name, email := merged.email, department := merged.department, role := merged.role,
         active := merged.active, updatedAt := Some(now))
  }

  /** When the re-read finds the row the UPDATE wrote, the call returns the merged User
      stamped with the update time, with the id and creation time the table kept: changes
      the request makes to those two fields are not written and do not come back. */
  lemma UpdateReturnsWrittenRow(id: int, applyTo: User -> User, now: Timestamp, drv: UpdateDriver, rest: seq<UserRow>)
    requires Found(drv) && drv.open.None? && Merged(applyTo, drv).active.Some?
    requires drv.update.Success? && drv.update.value != 0 && drv.release.None?
    requires drv.reread == Success([UpdatedRow(drv.lookup.value[0], Merged(applyTo, drv), now)] + rest)
    ensures UpdateUser(id, applyTo, now, drv).result == Success(Some(Merged(applyTo, drv).(
      id := Some(drv.lookup.value[0].id.GetOr(0)), createdAt := drv.lookup.value[0].createdAt, updatedAt := Some(now))))
  {
  }

  /** No write happens unless the existence check found the user. */
  lemma NoWriteBeforeExistence(id: int, applyTo: User -> User, now: Timestamp, drv: UpdateDriver)
    requires drv.lookup.Failure? || drv.lookup == Success([])
    ensures UpdateUser(id, applyTo, now, drv).issued.None?
    ensures UpdateUser(id, applyTo, now, drv).result.Failure?
  {
  }

  // ---------------------------------------------------------------------------
  // deleteUser

  /** `deleteUser`: true when a row was removed, false when no row had that id; a missing
      row is a result, not an error. The connection comes from `getConnection()`, a static
      method, so invoking it through the never-assigned `dataSource` field reads no field
      of the null reference and behaves as the class-qualified call does. */
  function DeleteUser(update: Result<int, SqlException>): (r: Result<bool, ServiceError>)
    ensures r == Success(true) <==> update.Success? && update.value > 0
    ensures r == Success(false) <==> update.Success? && update.value <= 0
    ensures r.Failure? ==> update.Failure? && r.error == DatabaseError(Delete, update.error)
  {
    match update
    case Failure(e) => Failure(DatabaseError(Delete, e))
    case Success(rowsAffected) => Success(rowsAffected > 0)
  }

  // ---------------------------------------------------------------------------
  // executeCountByDepartment

  /** `executeCountByDepartment`: the COUNT of the first row. A result with no row is an
      error raised inside the try block that escapes the SQLException handler. */
  function CountByDepartment(read: Result<seq<int32>, SqlException>): (r: Result<int32, ServiceError>)
    ensures r.Success? <==> read.Success? && |read.value| > 0
    ensures r.Success? ==> r.value == read.value[0]
    ensures r == Failure(NoCountRow) <==> read == Success([])
    ensures read.Failure? ==> r == Failure(DatabaseError(Count, read.error))
  {
    match read
    case Failure(e) => Failure(DatabaseError(Count, e))
    case Success(rows) => if rows == [] then Failure(NoCountRow) else Success(rows[0])
  }

  // ---------------------------------------------------------------------------
  // getTableColumns

  /** A row of `DatabaseMetaData.getColumns`; `None` is SQL NULL. */
  datatype ColumnRow = ColumnRow(
    columnName: Option<string>,
    typeName: Option<string>,
    columnSize: Option<int32>,
    isNullable: Option<string>,
    ordinalPosition: Option<int32>)

  /** The description `getTableColumns` builds for one column. */
  datatype ColumnInfo = ColumnInfo(
    columnName: Option<string>,
    dataType: Option<string>,
    size: int32,
    isNullable: bool,
    ordinalPosition: int32)

  /** Java `c.equalsIgnoreCase(d)` for the letters of "YES": besides the two ASCII cases,
      U+017F LATIN SMALL LETTER LONG S upper-cases to 'S' and so matches too. */
  predicate YesIgnoringCase(s: string) {
    |s| == 3 && s[0] in "Yy" && s[1] in "Ee" && s[2] in "Ss\U{17F}"
  }

  /** ASCII upper case. */
  function UpperAscii(c: char): char {
    if 'a' <= c <= 'z' then (c as int - 32) as char else c
  }

  /** On ASCII text the comparison with "YES" is equality after upper-casing. */
  lemma YesIsAsciiCaseFold(s: string)
    requires forall i :: 0 <= i < |s| ==> s[i] < 128 as char
    ensures YesIgnoringCase(s) <==> |s| == 3 && UpperAscii(s[0]) == 'Y' && UpperAscii(s[1]) == 'E' && UpperAscii(s[2]) == 'S'
  {
  }

  /** One column row as `getTableColumns` reads it: `getInt` reads SQL NULL as 0, and a
      null IS_NULLABLE makes `equalsIgnoreCase` throw. */
  function ReadColumn(row: ColumnRow): (c: Option<ColumnInfo>)
    ensures c.Some? <==> row.isNullable.Some?
    ensures c.Some? ==> c.value.columnName == row.columnName && c.value.dataType == row.typeName
    ensures c.Some? ==> c.value.isNullable == YesIgnoringCase(row.isNullable.value)
    ensures c.Some? ==> c.value.size == row.columnSize.GetOr(0) && c.value.ordinalPosition == row.ordinalPosition.GetOr(0)
  {
    match row.isNullable
    case None => None
    case Some(n) =>
      Some(ColumnInfo(row.columnName, row.typeName, row.columnSize.GetOr(0), YesIgnoringCase(n), row.ordinalPosition.GetOr(0)))
  }

  /** The `while (rs.next())` loop: every row read in order, or None at the first row
      whose IS_NULLABLE is NULL. */
  function ReadColumns(rows: seq<ColumnRow>): (cs: Option<seq<ColumnInfo>>)
    ensures cs.Some? <==> forall i :: 0 <= i < |rows| ==> rows[i].isNullable.Some?
    ensures cs.Some? ==> |cs.value| == |rows|
    ensures cs.Some? ==> forall i :: 0 <= i < |rows| ==> ReadColumn(rows[i]) == Some(cs.value[i])
  {
    if rows == [] then Some([])
    else
      match ReadColumn(rows[0])
      case None => None
      case Some(c) =>
        match ReadColumns(rows[1..])
        case None => None
        case Some(cs) => Some([c] + cs)
  }

  /** `getTableColumns`: the columns of the table in the order the metadata lists them;
      no column means the table does not exist. */
  function TableColumns(table: Option<string>, read: Result<seq<ColumnRow>, SqlException>): (r: Result<seq<ColumnInfo>, ServiceError>)
    ensures r == Failure(TableNotFound(table)) <==> read == Success([])
    ensures r.Success? <==>
      read.Success? && read.value != [] && forall i :: 0 <= i < |read.value| ==> read.value[i].isNullable.Some?
    ensures r.Success? ==> |r.value| == |read.value|
    ensures r.Success? ==> forall i :: 0 <= i < |read.value| ==> ReadColumn(read.value[i]) == Some(r.value[i])
    ensures r == Failure(NullPointer) <==> read.Success? && exists i :: 0 <= i < |read.value| && read.value[i].isNullable.None?
    ensures read.Failure? ==> r == Failure(DatabaseError(Columns, read.error))
  {
    match read
    case Failure(e) => Failure(DatabaseError(Columns, e))
    case Success(rows) =>
      match ReadColumns(rows)
      case None => Failure(NullPointer)
      case Some(cs) => if cs == [] then Failure(TableNotFound(table)) else Success(cs)
  }

  /** The metadata rows read into a non-empty list of descriptions are exactly what the
      call returns. */
  lemma TableColumnsReturnsReadRows(table: Option<string>, rows: seq<ColumnRow>, cs: seq<ColumnInfo>)
    requires ReadColumns(rows) == Some(cs) && cs != []
    ensures TableColumns(table, Success(rows)) == Success(cs)
  {
  }
}

=== FILE: errors.dfy ===
/** The exceptions the service raises to its callers. */
module Errors {
  import opened Wrappers
  import opened Jdbc

  /** The operation a SQLException was caught in; each wraps it with its own message. */
  datatype Operation = Create | Find | Update | Delete | Count | Columns | Batch

  datatype ServiceError =
    | DuplicateEmail(email: Option<string>)             // the email is already registered
    | DatabaseError(op: Operation, cause: SqlException) // a SQLException wrapped with its cause
    | NoRowInserted                                     // the INSERT affected no row
    | NoGeneratedKey                                    // the INSERT returned no generated id
    | UserNotFound(id: int)                             // no user has the id to update
    | NoRowUpdated                                      // the UPDATE affected no row
    | NoCountRow                                        // the COUNT query returned no row
    | TableNotFound(table: Option<string>)              // the table has no columns
    | NullPointer                                       // a NullPointerException escapes
}

=== FILE: jdbc.dfy ===
/** The vocabulary the service shares with the JDBC driver: Java's 32-bit `int`,
    the values bound to statement parameters, the exceptions the driver raises,
    and the calls the service makes on a connection. */
module Jdbc {
  import opened Wrappers

  const TwoTo32: int := 0x1_0000_0000

  /** Java `int`. */
  type int32 = x: int | -0x8000_0000 <= x < 0x8000_0000

  predicate InInt32(x: int) {
    -0x8000_0000 <= x < 0x8000_0000
  }

  /** Java's two's-complement narrowing: the unique `int` congruent to `x` modulo 2^32. */
  function Wrap32(x: int): (r: int32)
    ensures (r - x) % TwoTo32 == 0
    ensures InInt32(x) ==> r == x
  {
    (x + 0x8000_0000) % TwoTo32 - 0x8000_0000
  }

  /** Only one `int` is congruent to a given integer. */
  lemma Wrap32Unique(x: int, r: int)
    requires InInt32(r)
    requires (r - x) % TwoTo32 == 0
    ensures Wrap32(x) == r
  {
    var w := Wrap32(x);
    var d := r - w;
    assert d % TwoTo32 == 0 by {
      assert (r - x) == TwoTo32 * ((r - x) / TwoTo32);
      assert (w - x) == TwoTo32 * ((w - x) / TwoTo32);
      assert d == TwoTo32 * ((r - x) / TwoTo32 - (w - x) / TwoTo32);
    }
    assert -TwoTo32 < d < TwoTo32;
  }

  /** Adding after narrowing gives the same `int` as adding first: Java's `+=` on an
      `int` accumulator narrows the exact sum. */
  lemma Wrap32Add(a: int, b: int)
    ensures Wrap32(Wrap32(a) + b) == Wrap32(a + b)
  {
    var w := Wrap32(a);
    var r := Wrap32(a + b);
    assert (r - (w + b)) % TwoTo32 == 0 by {
      assert r - (a + b) == TwoTo32 * ((r - (a + b)) / TwoTo32);
      assert w - a == TwoTo32 * ((w - a) / TwoTo32);
      assert r - (w + b) == TwoTo32 * ((r - (a + b)) / TwoTo32 - (w - a) / TwoTo32);
    }
    Wrap32Unique(w + b, r);
  }

  /** Java `a * b` on two `int`s. */
  function Mul32(a: int32, b: int32): (r: int32)
    ensures (r - a * b) % TwoTo32 == 0
    ensures InInt32(a * b) ==> r == a * b
  {
    Wrap32(a * b)
  }

  /** An instant in time; `java.sql.Timestamp` and `LocalDateTime` are both this type. */
  type Timestamp = int

  /** A value bound to a statement parameter with `setString`, `setBoolean`, `setLong`,
      `setTimestamp` or `setObject`; `Null` is SQL NULL. */
  datatype SqlValue = Null | Text(text: string) | Flag(flag: bool) | Int(number: int) | Stamp(stamp: Timestamp)

  /** `setString(i, s)`: a null Java string binds SQL NULL. */
  function TextOrNull(s: Option<string>): (v: SqlValue)
    ensures v == Null <==> s.None?
    ensures s.Some? ==> v.Text? && v.text == s.value
  {
    match s
    case Some(t) => Text(t)
    case None => Null
  }

  /** A `java.sql.SQLException`; its message may be null. */
  datatype SqlException = SqlException(message: Option<string>)

  /** A call the service makes on the driver, as it appears in an execution trace. */
  datatype Call =
    | Acquire                 // DatabaseConfig.getConnection()
    | Prepare                 // conn.prepareStatement(sql)
    | SetAutoCommit(on: bool) // conn.setAutoCommit(on)
    | Execute(row: nat)       // pstmt.executeUpdate() for the row-th element
    | AddBatch(row: nat)      // ps.addBatch() for the row-th element
    | ExecuteBatch            // ps.executeBatch()
    | Commit                  // conn.commit()
    | Rollback                // conn.rollback()
    | CloseStatement          // closing the prepared statement
    | Close                   // conn.close()

  /** A failure oracle: the driver calls that throw, and the SQLException each throws.
      A call that throws has no effect on the connection. */
  type Failures = map<Call, SqlException>
}

=== FILE: query_builder.dfy ===
/** The dynamic query of `searchUsers`: from an optional-filter query it assembles one
    SELECT statement and the ordered list of values for its `?` placeholders. */
module QueryBuilder {
  import opened Wrappers
  import opened Jdbc
  import opened Text

  /** A `UserQueryDto`: optional department, role and active flag; page index and size. */
  datatype UserQuery = UserQuery(
    department: Option<string>,
    role: Option<string>,
    active: Option<bool>,
    page: int32,
    size: int32)

  /** SQL text together with the values bound to its placeholders, in order. */
  datatype Statement = Statement(sql: string, params: seq<SqlValue>)

  /** The positional parameter marker. Each fragment below is written as its text followed
      by its marker, so that the markers of a fragment are visible in its definition. */
  const Placeholder: string := "?"
  const Select: string := "SELECT * FROM users WHERE 1=1"
  const DepartmentClause: string := " AND department = " + Placeholder
  const RoleClause: string := " AND role = " + Placeholder
  const ActiveClause: string := " AND is_active = " + Placeholder
  const LimitClause: string := " ORDER BY id LIMIT " + Placeholder
  const OffsetClause: string := " OFFSET " + Placeholder
  const Pagination: string := LimitClause + OffsetClause

  /** The number of `?` placeholders in `s`. */
  function Placeholders(s: string): nat {
    multiset(s)['?']
  }

  /** A text filter is used only when it is non-null and non-empty. */
  predicate Given(s: Option<string>) {
    s.Some? && s.value != ""
  }

  /** Appends a clause and its value in one step, so the two cannot drift apart. */
  function Append(st: Statement, clause: string, value: SqlValue): Statement {
    Statement(st.sql + clause, st.params + [value])
  }

  /** The SELECT with the predicate clauses of the given filters, in the fixed order
      department, role, active. */
  function Filtered(q: UserQuery): (st: Statement)
    ensures |st.params| == (if Given(q.department) then 1 else 0)
                           + (if Given(q.role) then 1 else 0)
                           + (if q.active.Some? then 1 else 0)
  {
    var s0 := Statement(Select, []);
    var s1 := if Given(q.department) then Append(s0, DepartmentClause, Text(q.department.value)) else s0;
    var s2 := if Given(q.role) then Append(s1, RoleClause, Text(q.role.value)) else s1;
    if q.active.Some? then Append(s2, ActiveClause, Flag(q.active.value)) else s2
  }

  /** The statement `searchUsers` prepares and the parameters it binds, in the order it
      binds them: the filtered SELECT, then the page window. */
  function SearchStatement(q: UserQuery): (st: Statement)
    ensures |st.params| == 2 + (if Given(q.department) then 1 else 0)
                              + (if Given(q.role) then 1 else 0)
                              + (if q.active.Some? then 1 else 0)
    ensures st.params[|st.params| - 2] == Int(q.size)
    ensures st.params[|st.params| - 1] == Int(Mul32(q.page, q.size))
  {
    var f := Filtered(q);
    Statement(f.sql + Pagination, f.params + [Int(q.size), Int(Mul32(q.page, q.size))])
  }

  /** What a search statement asks the database for: the predicates it applies and the
      page window. */
  datatype Selection = Selection(
    department: Option<string>,
    role: Option<string>,
    active: Option<bool>,
    limit: int,
    offset: int)

  /** The selection a query means: a predicate for each filter that is given, rows ordered
      by id, `size` of them starting at row `page * size` (computed in Java `int`). */
  function Intended(q: UserQuery): Selection {
    Selection(
      if Given(q.department) then q.department else None,
      if Given(q.role) then q.role else None,
      q.active,
      q.size,
      Mul32(q.page, q.size))
  }

  /** A value taken off the front of a statement, and what is left of it. */
  datatype Taken<T> = Taken(value: Option<T>, rest: Statement)

  /** Reads `clause` at the head of the SQL together with the next parameter, a text. */
  function TakeText(st: Statement, clause: string): Taken<string> {
    if StartsWith(st.sql, clause) && |st.params| > 0 && st.params[0].Text? then
      Taken(Some(st.params[0].text), Statement(st.sql[|clause|..], st.params[1..]))
    else
      Taken(None, st)
  }

  /** Reads `clause` at the head of the SQL together with the next parameter, a flag. */
  function TakeFlag(st: Statement, clause: string): Taken<bool> {
    if StartsWith(st.sql, clause) && |st.params| > 0 && st.params[0].Flag? then
      Taken(Some(st.params[0].flag), Statement(st.sql[|clause|..], st.params[1..]))
    else
      Taken(None, st)
  }

  /** Recovers, from SQL text and parameters, the selection they describe: each predicate
      clause is paired with the parameter at the same position. None if the statement is
      not of the search shape. */
  function ParseSearch(st: Statement): Option<Selection> {
    if !StartsWith(st.sql, Select) then None
    else
      var d := TakeText(Statement(st.sql[|Select|..], st.params), DepartmentClause);
      var r := TakeText(d.rest, RoleClause);
      var a := TakeFlag(r.rest, ActiveClause);
      var tail := a.rest;
      if tail.sql == Pagination && |tail.params| == 2 && tail.params[0].Int? && tail.params[1].Int? then
        Some(Selection(d.value, r.value, a.value, tail.params[0].number, tail.params[1].number))
      else
        None
  }

  // ---------------------------------------------------------------------------
  // Placeholders and parameters stay in step.

  lemma PlaceholdersAppend(a: string, b: string)
    ensures Placeholders(a + b) == Placeholders(a) + Placeholders(b)
  {
    assert multiset(a + b) == multiset(a) + multiset(b);
  }

  lemma NoPlaceholders(s: string)
    requires '?' !in s
    ensures Placeholders(s) == 0
  {
  }

  // The placeholder count of each fragment, one fragment at a time.
  lemma MarkerPlaceholders() ensures Placeholders(Placeholder) == 1 {
    assert multiset(Placeholder) == multiset{'?'};
  }
  lemma SelectPlaceholders() ensures Placeholders(Select) == 0 {
    NoPlaceholders(Select);
  }
  lemma DepartmentPlaceholders() ensures Placeholders(DepartmentClause) == 1 {
    MarkerPlaceholders();
    NoPlaceholders(" AND department = ");
    PlaceholdersAppend(" AND department = ", Placeholder);
  }
  lemma RolePlaceholders() ensures Placeholders(RoleClause) == 1 {
    MarkerPlaceholders();
    NoPlaceholders(" AND role = ");
    PlaceholdersAppend(" AND role = ", Placeholder);
  }
  lemma ActivePlaceholders() ensures Placeholders(ActiveClause) == 1 {
    MarkerPlaceholders();
    NoPlaceholders(" AND is_active = ");
    PlaceholdersAppend(" AND is_active = ", Placeholder);
  }
  lemma LimitPlaceholders() ensures Placeholders(LimitClause) == 1 {
    MarkerPlaceholders();
    NoPlaceholders(" ORDER BY id LIMIT ");
    PlaceholdersAppend(" ORDER BY id LIMIT ", Placeholder);
  }
  lemma OffsetPlaceholders() ensures Placeholders(OffsetClause) == 1 {
    MarkerPlaceholders();
    NoPlaceholders(" OFFSET ");
    PlaceholdersAppend(" OFFSET ", Placeholder);
  }
  lemma PaginationPlaceholders() ensures Placeholders(Pagination) == 2 {
    LimitPlaceholders();
    OffsetPlaceholders();
    PlaceholdersAppend(LimitClause, OffsetClause);
  }

  /** Appending a one-placeholder clause with its value keeps placeholders and
      parameters in step. */
  lemma AppendInStep(st: Statement, clause: string, value: SqlValue)
    requires Placeholders(st.sql) == |st.params|
    requires Placeholders(clause) == 1
    ensures Placeholders(Append(st, clause, value).sql) == |Append(st, clause, value).params|
  {
    PlaceholdersAppend(st.sql, clause);
  }

  /** The predicate clauses and their values stay in step. */
  lemma FilteredInStep(q: UserQuery)
    ensures Placeholders(Filtered(q).sql) == |Filtered(q).params|
  {
    var s0 := Statement(Select, []);
    SelectPlaceholders();
    var s1 := if Given(q.department) then Append(s0, DepartmentClause, Text(q.department.value)) else s0;
    if Given(q.department) {
      DepartmentPlaceholders();
      AppendInStep(s0, DepartmentClause, Text(q.department.value));
    }
    var s2 := if Given(q.role) then Append(s1, RoleClause, Text(q.role.value)) else s1;
    if Given(q.role) {
      RolePlaceholders();
      AppendInStep(s1, RoleClause, Text(q.role.value));
    }
    if q.active.Some? {
      ActivePlaceholders();
      AppendInStep(s2, ActiveClause, Flag(q.active.value));
    }
  }

  /** Every `?` of the statement has exactly one parameter. */
  lemma PlaceholdersMatchParams(q: UserQuery)
    ensures Placeholders(SearchStatement(q).sql) == |SearchStatement(q).params|
  {
    FilteredInStep(q);
    PaginationPlaceholders();
    PlaceholdersAppend(Filtered(q).sql, Pagination);
  }

  // ---------------------------------------------------------------------------
  // The statement shape, and reading the statement back.

  /** The statement starts with the fixed SELECT and ends with the page window. */
  lemma SearchShape(q: UserQuery)
    ensures StartsWith(SearchStatement(q).sql, Select)
    ensures EndsWith(SearchStatement(q).sql, Pagination)
  {
    var f := Filtered(q);
    assert StartsWith(f.sql, Select) by {
      var s0 := Statement(Select, []);
      var s1 := if Given(q.department) then Append(s0, DepartmentClause, Text(q.department.value)) else s0;
      var s2 := if Given(q.role) then Append(s1, RoleClause, Text(q.role.value)) else s1;
      assert s1.sql[..|Select|] == Select;
      assert s2.sql[..|Select|] == Select;
    }
    assert (f.sql + Pagination)[..|Select|] == f.sql[..|Select|];
  }

  /** A clause and its value put in front of a statement. */
  function Prepend(clause: string, value: SqlValue, st: Statement): Statement {
    Statement(clause + st.sql, [value] + st.params)
  }

  // The search statement read from the page window backwards: each tail is a clause
  // and its value put in front of the next tail.
  ghost function PageTail(q: UserQuery): Statement {
    Statement(Pagination, [Int(q.size), Int(Mul32(q.page, q.size))])
  }
  ghost function ActiveTail(q: UserQuery): Statement {
    if q.active.Some? then Prepend(ActiveClause, Flag(q.active.value), PageTail(q)) else PageTail(q)
  }
  ghost function RoleTail(q: UserQuery): Statement {
    if Given(q.role) then Prepend(RoleClause, Text(q.role.value), ActiveTail(q)) else ActiveTail(q)
  }
  ghost function DepartmentTail(q: UserQuery): Statement {
    if Given(q.department) then Prepend(DepartmentClause, Text(q.department.value), RoleTail(q)) else RoleTail(q)
  }

  lemma AppendAssoc(a: string, b: string, c: string)
    ensures (a + b) + c == a + (b + c)
  {
  }

  /** Building left to right and reading right to left describe the same statement. */
  lemma SearchIsSelectThenTail(q: UserQuery)
    ensures SearchStatement(q) == Statement(Select + DepartmentTail(q).sql, DepartmentTail(q).params)
  {
    var s0 := Statement(Select, []);
    var s1 := if Given(q.department) then Append(s0, DepartmentClause, Text(q.department.value)) else s0;
    var s2 := if Given(q.role) then Append(s1, RoleClause, Text(q.role.value)) else s1;
    var s3 := if q.active.Some? then Append(s2, ActiveClause, Flag(q.active.value)) else s2;
    var d := if Given(q.department) then DepartmentClause else "";
    var r := if Given(q.role) then RoleClause else "";
    var a := if q.active.Some? then ActiveClause else "";
    assert s1.sql == Select + d;
    assert s2.sql == Select + d + r;
    assert s3.sql == Select + d + r + a;
    assert ActiveTail(q).sql == a + Pagination;
    assert RoleTail(q).sql == r + (a + Pagination);
    assert DepartmentTail(q).sql == d + (r + (a + Pagination));
    AppendAssoc(Select + d + r, a, Pagination);
    AppendAssoc(Select + d, r, a + Pagination);
    AppendAssoc(Select, d, r + (a + Pagination));
  }

  /** A statement whose character at `k` differs from the clause's does not start with it. */
  lemma Mismatch(s: string, clause: string, k: nat)
    requires k < |s| && k < |clause| && s[k] != clause[k]
    ensures !StartsWith(s, clause)
  {
  }

  // The characters that tell the fragments apart: the second character separates the
  // page window from a predicate clause, the sixth separates the predicate clauses.
  lemma DepartmentChars() ensures |DepartmentClause| > 5 && DepartmentClause[1] == 'A' && DepartmentClause[5] == 'd' { }
  lemma RoleChars() ensures |RoleClause| > 5 && RoleClause[1] == 'A' && RoleClause[5] == 'r' { }
  lemma ActiveChars() ensures |ActiveClause| > 5 && ActiveClause[1] == 'A' && ActiveClause[5] == 'i' { }
  lemma PaginationChars() ensures |Pagination| > 1 && Pagination[1] == 'O' { }

  /** Reading a clause put in front of a statement gives back its value and the statement. */
  lemma TakeTextPrepended(clause: string, t: string, st: Statement)
    ensures TakeText(Prepend(clause, Text(t), st), clause) == Taken(Some(t), st)
  {
    var p := Prepend(clause, Text(t), st);
    assert p.sql[..|clause|] == clause;
    assert p.sql[|clause|..] == st.sql;
    assert p.params[1..] == st.params;
  }

  lemma TakeFlagPrepended(clause: string, b: bool, st: Statement)
    ensures TakeFlag(Prepend(clause, Flag(b), st), clause) == Taken(Some(b), st)
  {
    var p := Prepend(clause, Flag(b), st);
    assert p.sql[..|clause|] == clause;
    assert p.sql[|clause|..] == st.sql;
    assert p.params[1..] == st.params;
  }

  lemma ReadActive(q: UserQuery)
    ensures TakeFlag(ActiveTail(q), ActiveClause) == Taken(q.active, PageTail(q))
  {
    if q.active.Some? {
      TakeFlagPrepended(ActiveClause, q.active.value, PageTail(q));
    } else {
      PaginationChars();
      ActiveChars();
      Mismatch(Pagination, ActiveClause, 1);
    }
  }

  lemma ReadRole(q: UserQuery)
    ensures TakeText(RoleTail(q), RoleClause) == Taken(if Given(q.role) then q.role else None, ActiveTail(q))
  {
    RoleChars();
    if Given(q.role) {
      TakeTextPrepended(RoleClause, q.role.value, ActiveTail(q));
    } else if q.active.Some? {
      ActiveChars();
      assert ActiveTail(q).sql[5] == ActiveClause[5];
      Mismatch(ActiveTail(q).sql, RoleClause, 5);
    } else {
      PaginationChars();
      Mismatch(Pagination, RoleClause, 1);
    }
  }

  lemma ReadDepartment(q: UserQuery)
    ensures TakeText(DepartmentTail(q), DepartmentClause)
         == Taken(if Given(q.department) then q.department else None, RoleTail(q))
  {
    DepartmentChars();
    if Given(q.department) {
      TakeTextPrepended(DepartmentClause, q.department.value, RoleTail(q));
    } else if Given(q.role) {
      RoleChars();
      assert RoleTail(q).sql[5] == RoleClause[5];
      Mismatch(RoleTail(q).sql, DepartmentClause, 5);
    } else if q.active.Some? {
      ActiveChars();
      assert RoleTail(q).sql[5] == ActiveClause[5];
      Mismatch(RoleTail(q).sql, DepartmentClause, 5);
    } else {
      PaginationChars();
      Mismatch(Pagination, DepartmentClause, 1);
    }
  }

  /** Reading the statement back pairs each clause with the value the query gave it:
      the statement asks for exactly the selection the query means. */
  lemma SearchRoundTrip(q: UserQuery)
    ensures ParseSearch(SearchStatement(q)) == Some(Intended(q))
  {
    SearchIsSelectThenTail(q);
    var st := SearchStatement(q);
    assert st.sql[..|Select|] == Select;
    assert st.sql[|Select|..] == DepartmentTail(q).sql;
    ReadDepartment(q);
    ReadRole(q);
    ReadActive(q);
  }

  /** Two queries give the same statement only if they mean the same selection. */
  lemma SearchStatementInjective(q1: UserQuery, q2: UserQuery)
    ensures SearchStatement(q1) == SearchStatement(q2) ==> Intended(q1) == Intended(q2)
  {
    SearchRoundTrip(q1);
    SearchRoundTrip(q2);
  }

  /** A predicate appears for a text filter exactly when it is non-null and non-empty, and
      for the active flag exactly when it is non-null. */
  lemma PredicatesOnlyForGivenFilters(q: UserQuery)
    ensures ParseSearch(SearchStatement(q)).Some?
    ensures ParseSearch(SearchStatement(q)).value.department.Some? <==> Given(q.department)
    ensures ParseSearch(SearchStatement(q)).value.role.Some? <==> Given(q.role)
    ensures ParseSearch(SearchStatement(q)).value.active == q.active
  {
    SearchRoundTrip(q);
  }

  /** With no usable filter the statement is the bare SELECT and the page window. */
  lemma UnfilteredSearch(q: UserQuery)
    requires !Given(q.department) && !Given(q.role) && q.active.None?
    ensures SearchStatement(q).sql == Select + Pagination
    ensures SearchStatement(q).params == [Int(q.size), Int(Mul32(q.page, q.size))]
  {
  }

  /** The offset parameter is `page * size` whenever that product fits in an `int`. */
  lemma OffsetIsPageTimesSize(q: UserQuery)
    requires InInt32(q.page * q.size)
    ensures Intended(q).offset == q.page * q.size
    ensures SearchStatement(q).params[|SearchStatement(q).params| - 1] == Int(q.page * q.size)
  {
  }
}

=== FILE: text.dfy ===
/** The string operations of `java.lang.String` the service relies on. */
module Text {

  predicate StartsWith(s: string, prefix: string) {
    |prefix| <= |s| && s[..|prefix|] == prefix
  }

  predicate EndsWith(s: string, suffix: string) {
    |suffix| <= |s| && s[|s| - |suffix|..] == suffix
  }

  /** `s.contains(part)`, searching from the left. */
  predicate Contains(s: string, part: string)
    decreases |s|
  {
    StartsWith(s, part) || (|s| > 0 && Contains(s[1..], part))
  }

  /** `part` occurs in `s` at position `i`. */
  predicate OccursAt(s: string, part: string, i: int) {
    0 <= i && i + |part| <= |s| && s[i..i + |part|] == part
  }

  /** The left-to-right search finds `part` exactly when it occurs somewhere in `s`. */
  lemma {:induction false} ContainsIffOccurs(s: string, part: string)
    ensures Contains(s, part) <==> exists i :: OccursAt(s, part, i)
    decreases |s|
  {
    if StartsWith(s, part) {
      assert OccursAt(s, part, 0);
    } else if |s| > 0 {
      ContainsIffOccurs(s[1..], part);
      if Contains(s[1..], part) {
        var i :| OccursAt(s[1..], part, i);
        assert s[1..][i..i + |part|] == s[i + 1..i + 1 + |part|];
        assert OccursAt(s, part, i + 1);
      } else {
        forall i | 0 < i && OccursAt(s, part, i) ensures OccursAt(s[1..], part, i - 1) {
          assert s[1..][i - 1..i - 1 + |part|] == s[i..i + |part|];
        }
      }
    }
  }
}

=== FILE: transfer.dfy ===
/** `transferData`: inserts a list of users in one manual transaction, commits, rolls back
    on a SQLException, and restores auto-commit and closes the connection in `finally`.
    The connection is an abstract state machine and the driver a failure oracle. */
module Transfer {
  import opened Wrappers
  import opened Jdbc
  import opened Users

  /** An abstract JDBC connection. `pending` holds the rows of the open transaction,
      `committed` the rows this transfer has made durable. */
  datatype Conn = Conn(autoCommit: bool, closed: bool, pending: seq<NewRow>, committed: seq<NewRow>)

  /** A connection as the pool hands it out: in auto-commit mode, nothing done yet. */
  const Opened := Conn(true, false, [], [])

  /** `executeUpdate` of one INSERT: durable at once in auto-commit mode, otherwise part
      of the open transaction. */
  function ExecuteOn(c: Conn, row: NewRow): Conn {
    if c.autoCommit then c.(committed := c.committed + [row]) else c.(pending := c.pending + [row])
  }

  function CommitOn(c: Conn): Conn {
    c.(committed := c.committed + c.pending, pending := [])
  }

  function RollbackOn(c: Conn): Conn {
    c.(pending := [])
  }

  /** `setAutoCommit`: switching auto-commit on while a transaction is open commits it, as
      the JDBC API's Connection.setAutoCommit specifies. */
  function SetAutoCommitOn(c: Conn, on: bool): Conn {
    if on && !c.autoCommit then CommitOn(c).(autoCommit := true) else c.(autoCommit := on)
  }

  /** In auto-commit mode no transaction is open. */
  predicate Consistent(c: Conn) {
    c.autoCommit ==> c.pending == []
  }

  /** No connection operation takes back a committed row, every operation keeps the
      connection consistent, and switching auto-commit on leaves no transaction open. */
  lemma CommittedRowsStay(c: Conn, row: NewRow, on: bool)
    requires Consistent(c)
    ensures c.committed <= ExecuteOn(c, row).committed && Consistent(ExecuteOn(c, row))
    ensures c.committed <= CommitOn(c).committed && Consistent(CommitOn(c))
    ensures RollbackOn(c).committed == c.committed && RollbackOn(c).pending == []
    ensures c.committed <= SetAutoCommitOn(c, on).committed && Consistent(SetAutoCommitOn(c, on))
    ensures on ==> SetAutoCommitOn(c, on).pending == [] && SetAutoCommitOn(c, on).autoCommit
    ensures c.committed + c.pending == SetAutoCommitOn(c, on).committed + SetAutoCommitOn(c, on).pending
  {
  }

  /** The row inserted for one user: a null active flag becomes true, a null creation time
      becomes now, and the update time is always now. */
  function TransferRow(u: User, now: Timestamp): NewRow {
    NewRow(u.name, u.email, u.department, u.role, u.active.GetOr(true), u.createdAt.GetOr(now), now)
  }

  /** The rows of the non-null elements, in order. */
  function RowsOf(users: seq<Option<User>>, now: Timestamp): seq<NewRow> {
    if users == [] then []
    else (if users[0].Some? then [TransferRow(users[0].value, now)] else []) + RowsOf(users[1..], now)
  }

  /** Every element is non-null, so every element yields a row. */
  predicate NoNulls(users: seq<Option<User>>) {
    forall k :: 0 <= k < |users| ==> users[k].Some?
  }

  lemma {:induction false} RowsOfNoNulls(users: seq<Option<User>>, now: Timestamp)
    requires NoNulls(users)
    ensures |RowsOf(users, now)| == |users|
    ensures forall k :: 0 <= k < |users| ==> RowsOf(users, now)[k] == TransferRow(users[k].value, now)
  {
    if users != [] {
      RowsOfNoNulls(users[1..], now);
    }
  }

  /** The first index from `i` on where the loop stops early: a null element or an
      `executeUpdate` that throws; `|users|` when there is none. */
  function FirstStop(users: seq<Option<User>>, i: nat, f: Failures): (n: nat)
    requires i <= |users|
    ensures i <= n <= |users|
    ensures forall k :: i <= k < n ==> users[k].Some? && Execute(k) !in f
    ensures n < |users| ==> users[n].None? || Execute(n) in f
    decreases |users| - i
  {
    if i == |users| || users[i].None? || Execute(i) in f then i else FirstStop(users, i + 1, f)
  }

  /** How a block ends: normally, with a SQLException, or with an unchecked
      NullPointerException. */
  datatype Exit = Normal | Sql(e: SqlException) | Unchecked

  /** The state after a block: how it ended, the connection, and the calls it made. */
  datatype Step = Step(exit: Exit, conn: Conn, trace: seq<Call>)

  lemma RowsOfStep(users: seq<Option<User>>, i: nat, n: nat, now: Timestamp)
    requires i < n <= |users|
    requires users[i].Some?
    ensures RowsOf(users[i..n], now) == [TransferRow(users[i].value, now)] + RowsOf(users[i + 1..n], now)
  {
    assert users[i..n][1..] == users[i + 1..n];
  }

  /** The loop over the users from index `i` on, inside a manual transaction: it runs the
      INSERT for every element up to the first stop, and ends there. */
  function InsertFrom(users: seq<Option<User>>, i: nat, now: Timestamp, c: Conn, f: Failures): (s: Step)
    requires i <= |users|
    requires !c.autoCommit
    ensures s.conn.autoCommit == c.autoCommit && s.conn.closed == c.closed && s.conn.committed == c.committed
    ensures s.conn.pending == c.pending + RowsOf(users[i..FirstStop(users, i, f)], now)
    ensures s.exit.Normal? <==> FirstStop(users, i, f) == |users|
    ensures s.exit.Unchecked? <==> FirstStop(users, i, f) < |users| && users[FirstStop(users, i, f)].None?
    ensures s.exit.Sql? ==> users[FirstStop(users, i, f)].Some? && s.exit.e == f[Execute(FirstStop(users, i, f))]
    ensures forall x :: x in s.trace ==> x.Execute?
    decreases |users| - i
  {
    if i == |users| then Step(Normal, c, [])
    else if users[i].None? then Step(Unchecked, c, [])
    else if Execute(i) in f then Step(Sql(f[Execute(i)]), c, [Execute(i)])
    else
      var rest := InsertFrom(users, i + 1, now, ExecuteOn(c, TransferRow(users[i].value, now)), f);
      assert FirstStop(users, i, f) == FirstStop(users, i + 1, f);
      RowsOfStep(users, i, FirstStop(users, i, f), now);
      Step(rest.exit, rest.conn, [Execute(i)] + rest.trace)
  }

  /** The outer try block once the connection is acquired: manual mode, the statement
      opened by try-with-resources, the loop, the statement closed, and the commit. A
      failure to close the statement counts only when the loop ended normally. */
  function TryBlock(users: Option<seq<Option<User>>>, now: Timestamp, f: Failures): Step {
    if SetAutoCommit(false) in f then Step(Sql(f[SetAutoCommit(false)]), Opened, [SetAutoCommit(false)])
    else
      var manual := SetAutoCommitOn(Opened, false);
      if Prepare in f then Step(Sql(f[Prepare]), manual, [SetAutoCommit(false), Prepare])
      else
        var loop := if users.None? then Step(Unchecked, manual, []) else InsertFrom(users.value, 0, now, manual, f);
        var trace := [SetAutoCommit(false), Prepare] + loop.trace + [CloseStatement];
        var exit := if loop.exit.Normal? && CloseStatement in f then Sql(f[CloseStatement]) else loop.exit;
        if !exit.Normal? then Step(exit, loop.conn, trace)
        else if Commit in f then Step(Sql(f[Commit]), loop.conn, trace + [Commit])
        else Step(Normal, CommitOn(loop.conn), trace + [Commit])
  }

  /** What `transferData` reports: `true`, or the RuntimeException it lets escape. */
  datatype Outcome =
    | Transferred                            // returns true
    | TxError(cause: SqlException)           // "error in transaction, rolled back"
    | RollbackCritical(cause: SqlException)  // the rollback failed; carries the rollback's exception
    | NullPointer                            // an unchecked exception from the loop

  datatype TransferRun = TransferRun(outcome: Outcome, conn: Option<Conn>, trace: seq<Call>)

  /** How the catch clause ends: what the caller will see, the connection, the calls. */
  datatype Caught = Caught(outcome: Outcome, conn: Conn, trace: seq<Call>)

  /** The catch clause. A SQLException is rolled back and rethrown as a transaction error;
      a failing rollback throws its own exception instead. An unchecked exception is
      rolled back only when `rollbackUnchecked`. */
  function CatchBlock(s: Step, f: Failures, rollbackUnchecked: bool): Caught {
    match s.exit
    case Normal => Caught(Transferred, s.conn, s.trace)
    case Sql(e) => RollbackThenThrow(TxError(e), s, f)
    case Unchecked =>
      if rollbackUnchecked then RollbackThenThrow(NullPointer, s, f) else Caught(NullPointer, s.conn, s.trace)
  }

  function RollbackThenThrow(thrown: Outcome, s: Step, f: Failures): Caught {
    if Rollback in f then Caught(RollbackCritical(f[Rollback]), s.conn, s.trace + [Rollback])
    else Caught(thrown, RollbackOn(s.conn), s.trace + [Rollback])
  }

  /** The finally clause: switch auto-commit back on, then close; a SQLException from
      either is swallowed and a failing restore skips the close. */
  function FinallyBlock(c: Conn, trace: seq<Call>, f: Failures): (Conn, seq<Call>) {
    if SetAutoCommit(true) in f then (c, trace + [SetAutoCommit(true)])
    else
      var restored := SetAutoCommitOn(c, true);
      if Close in f then (restored, trace + [SetAutoCommit(true), Close])
      else (restored.(closed := true), trace + [SetAutoCommit(true), Close])
  }

  function Run(users: Option<seq<Option<User>>>, now: Timestamp, f: Failures, rollbackUnchecked: bool): TransferRun {
    if Acquire in f then TransferRun(TxError(f[Acquire]), None, [Acquire])
    else
      var caught := CatchBlock(TryBlock(users, now, f), f, rollbackUnchecked);
      var (c, trace) := FinallyBlock(caught.conn, [Acquire] + caught.trace, f);
      TransferRun(caught.outcome, Some(c), trace)
  }

  /** `transferData` as written: only SQLException is caught. */
  function TransferData(users: Option<seq<Option<User>>>, now: Timestamp, f: Failures): (run: TransferRun)
    ensures Acquire in f ==> run == TransferRun(TxError(f[Acquire]), None, [Acquire])
    ensures Acquire !in f ==> run.conn.Some? && |run.trace| > 0 && run.trace[0] == Acquire
  {
    Run(users, now, f, false)
  }

  /** `transferData` with the catch widened to every exception, so that the rollback also
      runs when the loop throws a NullPointerException. */
  function TransferDataRollbackAll(users: Option<seq<Option<User>>>, now: Timestamp, f: Failures): (run: TransferRun)
    ensures Acquire in f ==> run == TransferRun(TxError(f[Acquire]), None, [Acquire])
    ensures Acquire !in f ==> run.conn.Some? && |run.trace| > 0 && run.trace[0] == Acquire
  {
    Run(users, now, f, true)
  }

  /** The calls whose failure makes the transfer fail. */
  predicate NoFailureBeforeCommit(users: seq<Option<User>>, f: Failures) {
    && Acquire !in f && SetAutoCommit(false) !in f && Prepare !in f
    && (forall k :: 0 <= k < |users| ==> Execute(k) !in f)
    && CloseStatement !in f && Commit !in f
  }

  lemma NoStopWhenClean(users: seq<Option<User>>, f: Failures)
    requires NoNulls(users) && NoFailureBeforeCommit(users, f)
    ensures FirstStop(users, 0, f) == |users|
  {
  }

  /** The try block ends normally exactly when the list and its elements are non-null and
      none of its calls fails; it has then committed every row. */
  lemma TryBlockNormalIff(users: Option<seq<Option<User>>>, now: Timestamp, f: Failures)
    requires Acquire !in f
    ensures TryBlock(users, now, f).exit.Normal? <==>
      users.Some? && NoNulls(users.value) && NoFailureBeforeCommit(users.value, f)
    ensures TryBlock(users, now, f).exit.Normal? ==>
      var c := TryBlock(users, now, f).conn;
      c.committed == RowsOf(users.value, now) && c.pending == [] && !c.autoCommit
  {
    if users.Some? && SetAutoCommit(false) !in f && Prepare !in f {
      var n := FirstStop(users.value, 0, f);
      if NoNulls(users.value) && NoFailureBeforeCommit(users.value, f) {
        NoStopWhenClean(users.value, f);
      }
      if n == |users.value| {
        assert users.value[0..n] == users.value;
        assert NoNulls(users.value);
      }
    }
  }

  /** The transfer succeeds exactly when the list and its elements are non-null and none of
      the calls up to the commit fails; then every row is committed and nothing is left
      pending. Failures of the rollback, the restore or the close play no part. */
  lemma TransferSucceedsIff(users: Option<seq<Option<User>>>, now: Timestamp, f: Failures, rollbackUnchecked: bool)
    ensures Run(users, now, f, rollbackUnchecked).outcome.Transferred? <==>
      users.Some? && NoNulls(users.value) && NoFailureBeforeCommit(users.value, f)
    ensures Run(users, now, f, rollbackUnchecked).outcome.Transferred? ==>
      var c := Run(users, now, f, rollbackUnchecked).conn.value;
      c.committed == RowsOf(users.value, now) && c.pending == [] && |c.committed| == |users.value|
  {
    if Acquire !in f {
      var s := TryBlock(users, now, f);
      TryBlockNormalIff(users, now, f);
      TryBlockFacts(users, now, f);
      CatchKeepsConnection(s, f, rollbackUnchecked);
      var k := CatchBlock(s, f, rollbackUnchecked);
      FinallyFacts(k.conn, [Acquire] + k.trace, f);
      if users.Some? && NoNulls(users.value) {
        RowsOfNoNulls(users.value, now);
      }
    }
  }

  /** A connection failure is reported as a transaction error before anything happens. */
  lemma AcquireFailureTouchesNothing(users: Option<seq<Option<User>>>, now: Timestamp, f: Failures)
    requires Acquire in f
    ensures TransferData(users, now, f) == TransferRun(TxError(f[Acquire]), None, [Acquire])
    ensures TransferDataRollbackAll(users, now, f) == TransferRun(TxError(f[Acquire]), None, [Acquire])
  {
  }

  /** The try block runs every INSERT in manual mode and commits nothing unless it ends
      normally; it never rolls back, restores auto-commit or closes the connection. */
  lemma TryBlockFacts(users: Option<seq<Option<User>>>, now: Timestamp, f: Failures)
    ensures var s := TryBlock(users, now, f);
      && Consistent(s.conn)
      && (!s.exit.Normal? ==> s.conn.committed == [])
      && (|s.trace| > 1 ==> !s.conn.autoCommit)
      && (forall k :: Execute(k) in s.trace ==> s.trace[0] == SetAutoCommit(false) && s.trace[1] == Prepare)
      && (forall x :: x in s.trace ==> x != Rollback && x != SetAutoCommit(true) && x != Close)
  {
  }

  /** The exception each call of the try block raises is the one the block ends with; a
      null list ends it with an unchecked exception. */
  lemma TryBlockExceptions(users: Option<seq<Option<User>>>, now: Timestamp, f: Failures)
    ensures var s := TryBlock(users, now, f);
      && (SetAutoCommit(false) in f ==> s.exit == Sql(f[SetAutoCommit(false)]))
      && (SetAutoCommit(false) !in f && Prepare in f ==> s.exit == Sql(f[Prepare]))
      && (SetAutoCommit(false) !in f && Prepare !in f && users.None? ==> s.exit == Unchecked)
    ensures var s := TryBlock(users, now, f);
      SetAutoCommit(false) !in f && Prepare !in f && users.Some? ==>
        var n := FirstStop(users.value, 0, f);
        && (n < |users.value| && users.value[n].None? ==> s.exit == Unchecked)
        && (n < |users.value| && users.value[n].Some? ==> s.exit == Sql(f[Execute(n)]))
        && (n == |users.value| && CloseStatement in f ==> s.exit == Sql(f[CloseStatement]))
        && (n == |users.value| && CloseStatement !in f && Commit in f ==> s.exit == Sql(f[Commit]))
  {
  }

  /** What the catch clause does with each way the try block can end: a SQLException is
      rethrown as the cause of the transaction error, unless the rollback fails, whose
      own exception then replaces it. */
  lemma CatchFacts(s: Step, f: Failures, rollbackUnchecked: bool)
    requires Consistent(s.conn) && Rollback !in s.trace && Close !in s.trace
    ensures var k := CatchBlock(s, f, rollbackUnchecked);
      && Consistent(k.conn) && Close !in k.trace
      && k.conn.committed == s.conn.committed
      && (Rollback in k.trace <==> s.exit.Sql? || (s.exit.Unchecked? && rollbackUnchecked))
      && (k.outcome.Transferred? <==> s.exit.Normal?)
      && (k.outcome.TxError? <==> s.exit.Sql? && Rollback !in f)
      && (s.exit.Sql? && Rollback !in f ==> k.outcome == TxError(s.exit.e))
      && (k.outcome.RollbackCritical? <==> Rollback in k.trace && Rollback in f)
      && (k.outcome.RollbackCritical? ==> k.outcome.cause == f[Rollback])
      && (k.outcome.NullPointer? <==> s.exit.Unchecked? && !(rollbackUnchecked && Rollback in f))
      && (Rollback in k.trace && Rollback !in f ==> k.conn.pending == [])
  {
  }

  /** The catch clause keeps the connection consistent, commits nothing and never closes. */
  lemma CatchKeepsConnection(s: Step, f: Failures, rollbackUnchecked: bool)
    requires Consistent(s.conn) && Close !in s.trace
    ensures var k := CatchBlock(s, f, rollbackUnchecked);
      Consistent(k.conn) && Close !in k.trace && k.conn.committed == s.conn.committed
  {
  }

  /** What the finally clause does to the connection and the trace. */
  lemma FinallyFacts(c: Conn, trace: seq<Call>, f: Failures)
    requires Consistent(c)
    ensures var r := FinallyBlock(c, trace, f);
      && (forall x :: x in r.1 <==> x in trace || x == SetAutoCommit(true) || (x == Close && SetAutoCommit(true) !in f))
      && (r.0.closed <==> c.closed || (SetAutoCommit(true) !in f && Close !in f))
      && (SetAutoCommit(true) !in f ==> r.0.autoCommit && r.0.pending == [] && r.0.committed == c.committed + c.pending)
      && (SetAutoCommit(true) in f ==> r.0 == c)
  {
  }

  /** A SQLException after the connection is acquired is always followed by a rollback
      attempt, and an unchecked exception never is as written; a clean rollback leaves
      nothing committed. */
  lemma SqlFailureRollsBack(users: Option<seq<Option<User>>>, now: Timestamp, f: Failures)
    requires Acquire !in f
    ensures var run := TransferData(users, now, f);
      Rollback in run.trace <==> run.outcome.TxError? || run.outcome.RollbackCritical?
    ensures var run := TransferData(users, now, f);
      run.outcome.TxError? ==> run.conn.value.committed == []
    ensures var run := TransferData(users, now, f);
      run.outcome.RollbackCritical? ==> run.outcome.cause == f[Rollback]
  {
    var s := TryBlock(users, now, f);
    TryBlockFacts(users, now, f);
    CatchFacts(s, f, false);
    var k := CatchBlock(s, f, false);
    FinallyFacts(k.conn, [Acquire] + k.trace, f);
  }

  /** Whatever happened before, the finally clause tries to restore auto-commit, closes
      only if the restore succeeded, and the connection ends up closed exactly when
      neither call failed. */
  lemma FinallyRestoresAndCloses(users: Option<seq<Option<User>>>, now: Timestamp, f: Failures, rollbackUnchecked: bool)
    requires Acquire !in f
    ensures var run := Run(users, now, f, rollbackUnchecked);
      && SetAutoCommit(true) in run.trace
      && (Close in run.trace <==> SetAutoCommit(true) !in f)
      && (run.conn.value.closed <==> SetAutoCommit(true) !in f && Close !in f)
      && (SetAutoCommit(true) !in f ==> run.conn.value.autoCommit && run.conn.value.pending == [])
  {
    var s := TryBlock(users, now, f);
    TryBlockFacts(users, now, f);
    CatchKeepsConnection(s, f, rollbackUnchecked);
    var k := CatchBlock(s, f, rollbackUnchecked);
    FinallyFacts(k.conn, [Acquire] + k.trace, f);
  }

  /** Two oracles that agree on every call before the finally clause. */
  ghost predicate AgreeBeforeFinally(f: Failures, g: Failures) {
    forall x :: x != SetAutoCommit(true) && x != Close ==> (x in f <==> x in g) && (x in f ==> f[x] == g[x])
  }

  lemma {:induction false} InsertFromAgrees(users: seq<Option<User>>, i: nat, now: Timestamp, c: Conn, f: Failures, g: Failures)
    requires i <= |users| && !c.autoCommit
    requires AgreeBeforeFinally(f, g)
    ensures InsertFrom(users, i, now, c, f) == InsertFrom(users, i, now, c, g)
    decreases |users| - i
  {
    assert Execute(i) in f <==> Execute(i) in g;
    if i < |users| && users[i].Some? {
      if Execute(i) in f {
        assert f[Execute(i)] == g[Execute(i)];
      } else {
        var next := ExecuteOn(c, TransferRow(users[i].value, now));
        InsertFromAgrees(users, i + 1, now, next, f, g);
        var rest := InsertFrom(users, i + 1, now, next, f);
        assert InsertFrom(users, i, now, c, f) == Step(rest.exit, rest.conn, [Execute(i)] + rest.trace);
        assert InsertFrom(users, i, now, c, g) == Step(rest.exit, rest.conn, [Execute(i)] + rest.trace);
      }
    }
  }

  lemma TryBlockAgrees(users: Option<seq<Option<User>>>, now: Timestamp, f: Failures, g: Failures)
    requires AgreeBeforeFinally(f, g)
    ensures TryBlock(users, now, f) == TryBlock(users, now, g)
  {
    assert SetAutoCommit(false) in f <==> SetAutoCommit(false) in g;
    assert Prepare in f <==> Prepare in g;
    assert CloseStatement in f <==> CloseStatement in g;
    assert Commit in f <==> Commit in g;
    if SetAutoCommit(false) !in f && Prepare !in f && users.Some? {
      InsertFromAgrees(users.value, 0, now, SetAutoCommitOn(Opened, false), f, g);
    }
  }

  /** The outcome is decided before the finally clause: two oracles that agree up to it
      give the same outcome. */
  lemma OutcomeDecidedBeforeFinally(users: Option<seq<Option<User>>>, now: Timestamp, f: Failures, g: Failures, rollbackUnchecked: bool)
    requires AgreeBeforeFinally(f, g)
    ensures Run(users, now, f, rollbackUnchecked).outcome == Run(users, now, g, rollbackUnchecked).outcome
  {
    assert Acquire in f <==> Acquire in g;
    if Acquire !in f {
      assert Rollback in f <==> Rollback in g;
      TryBlockAgrees(users, now, f, g);
      var s := TryBlock(users, now, f);
      assert CatchBlock(s, f, rollbackUnchecked).outcome == CatchBlock(s, g, rollbackUnchecked).outcome;
    }
  }

  /** In particular, the outcome does not depend on whether restoring auto-commit or
      closing fails. */
  lemma CleanupFailuresAreSwallowed(users: Option<seq<Option<User>>>, now: Timestamp, f: Failures, rollbackUnchecked: bool)
    ensures Run(users, now, f, rollbackUnchecked).outcome
         == Run(users, now, f - {SetAutoCommit(true), Close}, rollbackUnchecked).outcome
  {
    OutcomeDecidedBeforeFinally(users, now, f, f - {SetAutoCommit(true), Close}, rollbackUnchecked);
  }

  /** As written, a null element after some rows escapes the catch clause, so no rollback
      runs, and the finally clause's switch back to auto-commit commits the rows inserted
      before it. */
  lemma NullElementCommitsEarlierRows(u: User, now: Timestamp)
    ensures TransferData(Some([Some(u), None]), now, map[]).outcome == NullPointer
    ensures Rollback !in TransferData(Some([Some(u), None]), now, map[]).trace
    ensures TransferData(Some([Some(u), None]), now, map[]).conn.value.committed == [TransferRow(u, now)]
  {
    var users := [Some(u), None];
    assert FirstStop(users, 1, map[]) == 1;
    assert FirstStop(users, 0, map[]) == 1;
    assert users[0..1] == [Some(u)];
  }

  /** In general, as written: when the first stop is a null element and neither switching
      auto-commit call fails, the rows before it are committed. */
  lemma NullElementCommitsPrefix(users: seq<Option<User>>, now: Timestamp, f: Failures)
    requires Acquire !in f && SetAutoCommit(false) !in f && Prepare !in f && SetAutoCommit(true) !in f
    requires FirstStop(users, 0, f) < |users| && users[FirstStop(users, 0, f)].None?
    ensures TransferData(Some(users), now, f).outcome == NullPointer
    ensures TransferData(Some(users), now, f).conn.value.committed == RowsOf(users[..FirstStop(users, 0, f)], now)
  {
    assert users[0..FirstStop(users, 0, f)] == users[..FirstStop(users, 0, f)];
  }

  /** With the catch widened, the transfer is all-or-nothing: unless it succeeds or the
      rollback itself fails, no row is committed. */
  lemma RollbackAllIsAtomic(users: Option<seq<Option<User>>>, now: Timestamp, f: Failures)
    ensures var run := TransferDataRollbackAll(users, now, f);
      !run.outcome.Transferred? && !run.outcome.RollbackCritical? ==>
        run.conn.None? || run.conn.value.committed == []
  {
    if Acquire !in f {
      var s := TryBlock(users, now, f);
      TryBlockFacts(users, now, f);
      CatchFacts(s, f, true);
      var k := CatchBlock(s, f, true);
      FinallyFacts(k.conn, [Acquire] + k.trace, f);
    }
  }

  /** Widening the catch changes nothing for a list without null elements. */
  lemma RollbackAllAgreesWithoutNulls(users: seq<Option<User>>, now: Timestamp, f: Failures)
    requires NoNulls(users)
    ensures TransferDataRollbackAll(Some(users), now, f) == TransferData(Some(users), now, f)
  {
    if Acquire !in f && SetAutoCommit(false) !in f && Prepare !in f {
      var n := FirstStop(users, 0, f);
      assert n < |users| ==> users[n].Some?;
    }
  }
}

=== FILE: users.dfy ===
/** The User entity and the record mapper: how a row of the `users` table becomes a
    User (`mapResultSetToUser`) and which row a User occupies. */
module Users {
  import opened Wrappers
  import opened Jdbc

  /** The User object. Every field is a Java reference and may be null (`None`). */
  datatype User = User(
    id: Option<int>,
    name: Option<string>,
    email: Option<string>,
    department: Option<string>,
    role: Option<string>,
    active: Option<bool>,
    createdAt: Option<Timestamp>,
    updatedAt: Option<Timestamp>)

  /** One row of the `users` table as a result set shows it; `None` is SQL NULL. */
  datatype UserRow = UserRow(
    id: Option<int>,
    name: Option<string>,
    email: Option<string>,
    department: Option<string>,
    role: Option<string>,
    active: Option<bool>,
    createdAt: Option<Timestamp>,
    updatedAt: Option<Timestamp>)

  /** The values an INSERT binds: every column but the server-generated `id`. */
  datatype NewRow = NewRow(
    name: Option<string>,
    email: Option<string>,
    department: Option<string>,
    role: Option<string>,
    active: bool,
    createdAt: Timestamp,
    updatedAt: Timestamp)

  /** The eight columns of a row, in the order `findUserById` selects them. */
  function RowValues(row: UserRow): (vs: seq<SqlValue>)
    ensures |vs| == 8
    ensures vs[0] == (if row.id.Some? then Int(row.id.value) else Null)
    ensures vs[1] == TextOrNull(row.name) && vs[2] == TextOrNull(row.email)
    ensures vs[3] == TextOrNull(row.department) && vs[4] == TextOrNull(row.role)
    ensures vs[5] == (if row.active.Some? then Flag(row.active.value) else Null)
    ensures vs[6] == (if row.createdAt.Some? then Stamp(row.createdAt.value) else Null)
    ensures vs[7] == (if row.updatedAt.Some? then Stamp(row.updatedAt.value) else Null)
  {
    [ if row.id.Some? then Int(row.id.value) else Null,
      TextOrNull(row.name), TextOrNull(row.email), TextOrNull(row.department), TextOrNull(row.role),
      if row.active.Some? then Flag(row.active.value) else Null,
      if row.createdAt.Some? then Stamp(row.createdAt.value) else Null,
      if row.updatedAt.Some? then Stamp(row.updatedAt.value) else Null ]
  }

  /** The parameters `(?, ?, ?, ?, ?, ?, ?)` of `INSERT INTO users (name, email, department,
      role, active, created_at, updated_at)`, in that order. */
  function InsertParams(r: NewRow): (vs: seq<SqlValue>)
    ensures |vs| == 7
    ensures forall k :: 0 <= k < 7 ==> vs[k] != Null || k < 4
  {
    [ TextOrNull(r.name), TextOrNull(r.email), TextOrNull(r.department), TextOrNull(r.role),
      Flag(r.active), Stamp(r.createdAt), Stamp(r.updatedAt) ]
  }

  /** The row an INSERT of `r` leaves in the table once the database assigns it `id`. */
  function Persisted(r: NewRow, id: int): (row: UserRow)
    ensures RowValues(row) == [Int(id)] + InsertParams(r)
  {
    UserRow(Some(id), r.name, r.email, r.department, r.role, Some(r.active), Some(r.createdAt), Some(r.updatedAt))
  }

  /** The row a User occupies: each field in its column, null as SQL NULL. */
  function StoredRow(u: User): UserRow {
    UserRow(u.id, u.name, u.email, u.department, u.role, u.active, u.createdAt, u.updatedAt)
  }

  /** `mapResultSetToUser`: copies the row field by field. `getLong` and `getBoolean` read
      SQL NULL as 0 and false, so the id and the active flag are never null; a NULL
      timestamp leaves the field unset. */
  function MapRow(row: UserRow): (u: User)
    ensures u.id.Some? && u.active.Some?
    ensures u.id.value == row.id.GetOr(0) && u.active.value == row.active.GetOr(false)
    ensures u.name == row.name && u.email == row.email && u.department == row.department && u.role == row.role
    ensures u.createdAt == row.createdAt && u.updatedAt == row.updatedAt
  {
    User(Some(row.id.GetOr(0)), row.name, row.email, row.department, row.role,
         Some(row.active.GetOr(false)), row.createdAt, row.updatedAt)
  }

  /** Mapping the row a User occupies gives that User back exactly when its id and
      active flag are set. */
  lemma ReadBackStored(u: User)
    ensures MapRow(StoredRow(u)) == u <==> u.id.Some? && u.active.Some?
  {
  }

  /** Mapping loses information exactly for a NULL id or a NULL active column. */
  lemma StoreMapped(row: UserRow)
    ensures StoredRow(MapRow(row)) == row <==> row.id.Some? && row.active.Some?
  {
  }

  /** Mapping is injective on rows whose id and active columns are set. */
  lemma MapRowInjective(a: UserRow, b: UserRow)
    requires a.id.Some? && a.active.Some? && b.id.Some? && b.active.Some?
    ensures MapRow(a) == MapRow(b) ==> a == b
  {
    StoreMapped(a);
    StoreMapped(b);
  }
}

=== FILE: wrappers.dfy ===
/** Optional values and success-or-failure results, standing in for Java's `null`
    and for the exceptions an operation raises. */
module Wrappers {

  /** A nullable Java reference: `None` is `null`. */
  datatype Option<+T> = None | Some(value: T) {

    /** The conditional `x != null ? x : fallback`. */
    function GetOr(fallback: T): T {
      if Some? then value else fallback
    }
  }

  /** Either the value an operation returns or the error it raises. */
  datatype Result<+R, +E> = Success(value: R) | Failure(error: E)
}
